=== FILE: README.md ===
# Sound mixer of `audio_engine`, modelled in Dafny

This project models the sound `Mixer` of the `audio_engine` crate
(`audio_engine/src/mixer.rs`) and proves what its operations do.

The mixer owns a vector of sound entries (`SoundInner`) and a `playing`
counter. Entries at indices `[0, playing)` produce audio. Entries at
`[playing, len)` are paused or stopped.

- `play`, `pause` and `stop` find an entry by a reversed linear scan on its id.
  `play` and `pause` move a found entry across the boundary with one swap.
  `stop` always rewinds the found entry's source first, and swaps it out of
  the playing partition only when it was playing.
- `reset`, `set_volume`, `set_loop`, `drop_sound` and `update_effect` edit the
  entry in place.
- `add_sound` appends a new idle entry with the next id.
- `set_config` does nothing when the format is unchanged. Otherwise it wraps
  a source in a channel adapter only when its channel count differs, then in a
  rate adapter only when its sample rate still differs.
- `write_samples` runs one pass over the playing entries. Each entry:
  - fills a scratch buffer from its source (a looping source is rewound and
    refilled);
  - saturating-adds its samples onto the output buffer, after the entry's
    effect and volume;
  - if it wrote short, is demoted and, when marked by a dropped handle,
    removed with `swap_remove`.

Modules, one per concern:

- `Pcm`: the `i16` sample range, `i16::saturating_add`, and the saturating
  float-to-`i16` cast.
- `Sources`: the `SoundSource` capability on values. A source is a track (its
  samples, a read position and the format it was decoded in) inside a stack of
  format adapters. It also has `write_samples` into a buffer (`Fill`), `reset`,
  and the conversion `set_config` applies.
- `Playback`: the inner refill loop of `write_samples`, as the method `Refill`.
  It is proved against the closed forms `Chunk` (the samples delivered) and
  `After` (where the source is left).
- `Entries`: the entry record, the contribution of one sample, and an entry
  advanced by one buffer.
- `Lineups`: the keyed operations as functions on `(sounds, playing)`. Their
  lemmas state the partition each one produces. Sequences of play, pause and
  stop commands are covered too.
- `MixPass`: the specification of one `write_samples` pass:
  - the order in which the cursor reaches the entries (`PassOrder`) and the
    lineup the pass leaves (`PassLineup`);
  - the value of every output sample (`MixedValue`);
  - the fate of every entry (`Fate`, `Outcome`);
  - the per-step lemmas that keep the pass invariant.
- `Mixing`: the `Mixer` class. Its methods update `sounds`, `playing` and the
  format in place and are proved against the functions above. `write_samples`
  writes into an `array` buffer.
- `Handles`: the `Sound` handle, forwarding to the mixer.

## Model

| member | source | states |
|---|---|---|
| Pcm.SatAdd | audio_engine/src/mixer.rs:396-404 | The result is the exact sum when it fits in `i16`; otherwise it is the bound on the side that overflowed. It never wraps. |
| Pcm.SatAddKeepsSign | audio_engine/src/mixer.rs:396-404 | Adding two samples of the same sign moves away from zero at least as far as either operand. |
| Pcm.CastI16 | audio_engine/src/mixer.rs:396-404 | `as i16` on a float rounds toward zero and saturates at the range bounds. An in-range integral value is kept exactly. |
| Sources.ChannelConverter | audio_engine/src/mixer.rs:229-232 | The wrapped source reports the new channel count. Its sample rate, samples and read position are unchanged. |
| Sources.RateConverter | audio_engine/src/mixer.rs:233-236 | The wrapped source reports the new sample rate. Its channel count, samples and read position are unchanged. |
| Sources.Channels | audio_engine/src/mixer.rs:114 | The channel count a source reports: the track's own when it has no adapter, and that of the outermost adapter when it is a channel adapter. |
| Sources.SampleRate | audio_engine/src/mixer.rs:117 | The sample rate a source reports: the track's own when it has no adapter, and that of the outermost adapter when it is a rate adapter. |
| Sources.OutermostChannels | audio_engine/src/mixer.rs:114 | For any stack of adapters, the channel count reported is that of the outermost channel adapter, or the track's own when only rate adapters surround it. |
| Sources.OutermostRate | audio_engine/src/mixer.rs:117 | For any stack of adapters, the sample rate reported is that of the outermost rate adapter, or the track's own when only channel adapters surround it. |
| Sources.Reset | audio_engine/src/mixer.rs:119-120 | The position is 0, so everything remains to be played. Samples, adapters and format are unchanged. |
| Sources.Fill | audio_engine/src/mixer.rs:122-130 | Writes `min(room, remaining)` samples: the next remaining ones, in order. The position advances past them. A short write happens exactly when less than the buffer remained, and then nothing remains. |
| Sources.ResetReplays | audio_engine/src/mixer.rs:119-130 | After a reset, a fill yields the source's samples from the start, as a fresh track of the same samples would. |
| Sources.ConvertMatchesFormat | audio_engine/src/mixer.rs:225-238 | After conversion the source reports the mixer's channels and rate. A channel adapter is added only if the channels differed, then a rate adapter only if the rate differed. Samples and position are kept. A source already in the format is unchanged. |
| Sources.Convert | audio_engine/src/mixer.rs:229-236 | The converted source reports exactly the mixer's channel count and sample rate, and keeps the samples and the read position of the source it wraps. |
| Playback.Refill | audio_engine/src/mixer.rs:384-394 | The refill loop terminates. The scratch buffer is `Chunk`: a looping source with samples repeats its waveform with no gap for the whole buffer; any other source gives what remains, up to the buffer. The source is left as `After` says: rewound after a short write, otherwise moved past what it wrote, modulo its period when looping. |
| Playback.LoopingChunkRepeats | audio_engine/src/mixer.rs:385-394 | A looping chunk first plays what remains of the source, then restarts at its first sample. Every later sample equals the one a period earlier, and the chunk fills the buffer. |
| Playback.EmptyLoopingSourceSpins | audio_engine/src/mixer.rs:385-394 | As written, a pass over a looping source with no samples writes nothing, rewinds and asks to go round again. From the second pass on the state never changes. |
| Playback.RefillPassAsWritten | audio_engine/src/mixer.rs:385-394 | One pass of the refill loop as written: the chunk grows by the next remaining samples of the source and stays within the buffer. A short chunk leaves the source rewound. The loop goes round again exactly when the entry loops and the chunk plus what remained is shorter than the buffer. |
| Entries.UnitGainIsTransparent | audio_engine/src/mixer.rs:396-398 | At unit volume, with the identity effect, a sample's contribution is the sample itself. |
| Entries.NewEntry | audio_engine/src/mixer.rs:168-177 | A new entry has the given id, source and effect, volume 1.0, is not looping and not marked for removal. At its unit volume every sample contributes the cast effect output with no scaling. |
| Entries.Contribution | audio_engine/src/mixer.rs:396-404 | Within a quantum of unit volume the contribution is the cast effect output, unscaled. An effect output of 0 contributes 0. A non-negative effect output contributes a value of the same sign as the volume, or 0. |
| Entries.Advance | audio_engine/src/mixer.rs:384-394 | The refill changes only the entry's source, which keeps its samples and stays valid. |
| Entries.Finished | audio_engine/src/mixer.rs:406 | The short-write test `len < buffer.len()`. A looping entry whose source has samples never finishes, nor does any entry asked for no samples. A non-looping entry with less than a buffer left always finishes. |
| Entries.FinishedIffExhausted | audio_engine/src/mixer.rs:384-394 | An entry writes short exactly when it is not a looping entry with samples and less than a buffer of its source remains. A short-writing entry is rewound to position 0. Otherwise it fills the whole buffer. |
| Lineups.LastIndexOf | audio_engine/src/mixer.rs:300-307 | The reversed scan returns -1 exactly when no entry in the range has the id. Otherwise it returns the last index in the range holding the id. |
| Lineups.Swap | audio_engine/src/mixer.rs:258 | `Vec::swap`: the two slots trade entries and every other slot is kept. |
| Lineups.Play | audio_engine/src/mixer.rs:255-263 | Keeps the number of entries and the boundary within them. The partition it produces is stated by `Lineups.PlayMovesIntoPartition`. |
| Lineups.Pause | audio_engine/src/mixer.rs:269-277 | Keeps the number of entries and the boundary within them. The partition it produces is stated by `Lineups.PauseMovesOutOfPartition`. |
| Lineups.Stop | audio_engine/src/mixer.rs:284-295 | Keeps the number of entries and the boundary within them. Its effect is stated by `Lineups.StopRewindsAndDemotes` and `Lineups.StopIsRewindThenPause`. |
| Lineups.Edited | audio_engine/src/mixer.rs:300-351 | One keyed edit of an entry in place: the id, the samples and the adapters are kept. A rewind sets the position to 0 and changes nothing else. Any other edit keeps the source, and each field other than the one the edit names is unchanged. |
| Lineups.Update | audio_engine/src/mixer.rs:300-351 | Keeps the number of entries and the boundary itself. Which entry it edits is stated by `Lineups.UpdateEditsOnlyTarget`. |
| Lineups.Add | audio_engine/src/mixer.rs:245-250 | Adds exactly one entry and keeps the boundary within the entries. Where it lands is stated by `Lineups.AddAppendsIdle`. |
| Lineups.Reconfigure | audio_engine/src/mixer.rs:225-238 | Keeps the number of entries and the boundary itself. That entries, order and partitions are kept is stated by `Lineups.ReconfigureKeepsEntries`. |
| Lineups.LastIndexOfFinds | audio_engine/src/mixer.rs:300-307 | With distinct ids, the scan finds an index exactly when the id is in the range, and that index is the one entry holding it. |
| Lineups.SwapKeeps | audio_engine/src/mixer.rs:255-263 | `Vec::swap` keeps the multiset of entries and the set of ids, and keeps ids distinct. |
| Lineups.PlayMovesIntoPartition | audio_engine/src/mixer.rs:255-263 | On an idle id: `playing` grows by one and the entry sits at the old boundary. The playing ids gain exactly that id and the idle ids lose it. Otherwise nothing changes. Always: the lineup stays valid and the entries (hence all read positions) are kept as a multiset. |
| Lineups.PauseMovesOutOfPartition | audio_engine/src/mixer.rs:269-277 | On a playing id: `playing` shrinks by one and the same entry, untouched, sits at the new boundary. The id moves from the playing ids to the idle ids. Otherwise nothing changes. Entries are kept as a multiset. |
| Lineups.UpdateEditsOnlyTarget | audio_engine/src/mixer.rs:300-351 | The setters edit exactly the entry with the id, in place. Order, boundary, partitions and every other entry are unchanged, and an absent id changes nothing. |
| Lineups.StopIsRewindThenPause | audio_engine/src/mixer.rs:284-295 | `stop` equals the rewind edit followed by `pause`. |
| Lineups.StopRewindsAndDemotes | audio_engine/src/mixer.rs:284-295 | `stop` rewinds the entry whether or not it plays. It leaves the playing ids without the id and adds the id to the idle ids when present. It keeps the entries of the rewound lineup as a multiset. An absent id changes nothing. |
| Lineups.AddAppendsIdle | audio_engine/src/mixer.rs:245-250 | The new entry is appended after all others, with a fresh id, in the idle partition. The playing ids and `playing` are unchanged. |
| Lineups.ReconfigureKeepsEntries | audio_engine/src/mixer.rs:225-238 | Every entry keeps its index, its partition, all fields but its source, and its samples and position. Each source now reports the new format. |
| Lineups.ApplyDecides | audio_engine/src/mixer.rs:255-295 | One play, pause or stop changes the playing status of its own id only. Play makes it playing; pause and stop make it idle. |
| Lineups.RunDecidesPlaying | audio_engine/src/mixer.rs:255-295 | After any sequence of play, pause and stop, a sound is playing exactly when the last command about it was play. With no such command, it is playing exactly when it was to begin with. |
| MixPass.SwapRemove | audio_engine/src/mixer.rs:407-409 | `Vec::swap_remove`: one entry fewer. The last entry takes the removed slot and every other slot is kept. |
| MixPass.SwapRemoveEntries | audio_engine/src/mixer.rs:407-409 | `Vec::swap_remove` takes exactly the removed entry out of the multiset of entries. |
| MixPass.SwapRemoveIds | audio_engine/src/mixer.rs:407-409 | Removing an entry removes exactly its id and keeps the remaining ids distinct. |
| MixPass.AddChunk | audio_engine/src/mixer.rs:396-404 | Adding one chunk keeps the buffer length and leaves every sample beyond the chunk unchanged. |
| MixPass.MixedValueAppend | audio_engine/src/mixer.rs:396-404 | Mixing one more entry saturating-adds its contribution onto each sample its chunk reaches. Other samples are unchanged. |
| MixPass.MixedValueBeyondChunks | audio_engine/src/mixer.rs:396-404 | An output sample beyond every mixed chunk keeps its old value. |
| MixPass.SilencedEntriesChangeNothing | audio_engine/src/mixer.rs:396-404 | Entries whose effect outputs silence leave the buffer as it was. |
| MixPass.SoloEntryCopiesChunk | audio_engine/src/mixer.rs:381-404 | One unit-gain identity-effect entry mixed onto silence reproduces its chunk and leaves silence after it. |
| MixPass.PassStarts | audio_engine/src/mixer.rs:381-383 | At the start of the pass every entry is unmixed and in its place. |
| MixPass.StepFilled | audio_engine/src/mixer.rs:416-418 | An entry that filled the buffer is advanced in place and the cursor moves past it. The pass invariant is kept. |
| MixPass.StepRetired | audio_engine/src/mixer.rs:406-415 | Retiring a short-writing entry (remove when marked, shrink the boundary, swap the last playing entry into the slot) keeps the pass invariant. If the pass stops there, either the cursor reached the boundary, or the pass removed an entry and no entry was idle when the pass began. |
| MixPass.Retire | audio_engine/src/mixer.rs:406-415 | The boundary shrinks by one and stays within the entries. One entry fewer remains exactly when the entry was marked. The pass stops exactly when no entry plays or none is idle. Every source stays valid. |
| MixPass.RetireKeepsEntries | audio_engine/src/mixer.rs:406-415 | Retiring loses exactly the retired entry from the multiset of entries when it was marked for removal, and no entry otherwise. |
| MixPass.PassOrder | audio_engine/src/mixer.rs:381-418 | The entries the pass mixes, in cursor order. The first is the entry under the cursor, there is at most one per playing entry, and there are none once the cursor meets the boundary. |
| MixPass.PassLineup | audio_engine/src/mixer.rs:381-418 | The entries and boundary the pass leaves. The boundary never grows, the entries never grow, the idle entries never shrink in number and every source stays valid. |
| MixPass.PassRunOutcome | audio_engine/src/mixer.rs:381-419 | Continuing a pass from any state that keeps the pass invariant ends in `Outcome` for the lineup `PassLineup` gives and the ids `PassOrder` mixes. |
| MixPass.PassLineupOutcome | audio_engine/src/mixer.rs:381-419 | A whole pass over a valid lineup: the lineup `PassLineup` leaves and the entries `PassOrder` mixes meet `Outcome`. |
| MixPass.PassOrderInLineup | audio_engine/src/mixer.rs:381-418 | When no entry from the cursor to the boundary finishes, the pass mixes exactly those entries, in lineup order. |
| MixPass.PassOrderWhole | audio_engine/src/mixer.rs:381-418 | A pass in which no playing entry finishes mixes the playing partition in lineup order. |
| MixPass.PassEnds | audio_engine/src/mixer.rs:383-419 | At the end of the pass, `Outcome` holds for every original entry. Either it was mixed (it was playing, advanced by one buffer, left the playing partition iff it wrote short, and is gone iff it wrote short while marked), or it is untouched in its partition. Unless the pass removed an entry and no entry was idle when the pass began, every playing entry was mixed. |
| Mixing.MixInto | audio_engine/src/mixer.rs:396-404 | The output buffer becomes `AddChunk` of its old contents. |
| Mixing.MixUnitGain | audio_engine/src/mixer.rs:396-399 | The unit-volume loop adds each effect output, cast to `i16`, onto the output sample at the same index. |
| Mixing.MixScaled | audio_engine/src/mixer.rs:400-404 | The scaled loop adds each effect output times the volume, cast to `i16`, onto the output sample at the same index. |
| Mixing.Mixer.constructor | audio_engine/src/mixer.rs:196-203 | A new mixer has no entries, nothing playing, and the given format. |
| Mixing.Mixer.IndexOf | audio_engine/src/mixer.rs:300-307 | The reversed index loop finds what `LastIndexOf` specifies. |
| Mixing.Mixer.SetConfig | audio_engine/src/mixer.rs:210-242 | An unchanged format is a no-op. Otherwise every source is converted in place (`Reconfigure`) and the format fields are updated. |
| Mixing.Mixer.AddSound | audio_engine/src/mixer.rs:245-250 | Returns the counter's id, larger than every id present; the counter grows. The entries become `Add` of the old ones with a new entry at unit volume, not looping, not marked. |
| Mixing.Mixer.Play | audio_engine/src/mixer.rs:255-263 | The new state is `Lineups.Play` of the old one. |
| Mixing.Mixer.Pause | audio_engine/src/mixer.rs:269-277 | The new state is `Lineups.Pause` of the old one. |
| Mixing.Mixer.Stop | audio_engine/src/mixer.rs:284-295 | The new state is `Lineups.Stop` of the old one. |
| Mixing.Mixer.Reset | audio_engine/src/mixer.rs:300-307 | The new state is the rewind edit of the entry with the id. |
| Mixing.Mixer.SetVolume | audio_engine/src/mixer.rs:311-318 | The new state is the volume edit of the entry with the id. |
| Mixing.Mixer.SetLoop | audio_engine/src/mixer.rs:322-329 | The new state is the loop-flag edit of the entry with the id. |
| Mixing.Mixer.DropSound | audio_engine/src/mixer.rs:333-340 | The new state marks the entry with the id for removal. |
| Mixing.Mixer.UpdateEffect | audio_engine/src/mixer.rs:344-351 | The new state replaces the effect of the entry with the id. |
| Mixing.Mixer.RefillAt | audio_engine/src/mixer.rs:384-394 | Returns the entry's chunk and advances the entry's source in place. The chunk is short exactly when the entry finished. |
| Mixing.Mixer.RetireAt | audio_engine/src/mixer.rs:406-415 | Swap-removes a marked entry, decrements `playing`, and either swaps the slot with the last playing entry or reports that the pass stops, as `Retire` says. |
| Mixing.Mixer.WriteSamples | audio_engine/src/mixer.rs:372-423 | Returns the buffer length and keeps the mixer valid. With nothing playing, the buffer is zero-filled and nothing else changes. Otherwise every output sample is its old value with the contributions of the mixed entries saturating-added one after another. The entries are mixed in the order `PassOrder` gives, the order the cursor reaches them, and the entries and boundary left are exactly `PassLineup`. When no playing entry finishes, that order is the old playing partition as it stood. The mixed entries are distinct entries of the old playing partition, and `Outcome` gives every entry's fate. |
| Mixing.Mixer.MixPlaying | audio_engine/src/mixer.rs:381-419 | The pass over the playing entries ends with the mixed buffer, the log of mixed entries in the order `PassOrder` gives, the lineup `PassLineup` gives, and `Outcome`. |
| Handles.Sound.constructor | audio_engine/src/mixer.rs:33-38 | The handle refers to its mixer and its sound id. |
| Handles.Sound.Play | audio_engine/src/mixer.rs:47-49 | The mixer's state becomes `Lineups.Play` for the handle's id. The mixer's format and id counter are unchanged. |
| Handles.Sound.Pause | audio_engine/src/mixer.rs:57-59 | The mixer's state becomes `Lineups.Pause` for the handle's id. The mixer's format and id counter are unchanged. |
| Handles.Sound.Stop | audio_engine/src/mixer.rs:67-69 | The mixer's state becomes `Lineups.Stop` for the handle's id. The mixer's format and id counter are unchanged. |
| Handles.Sound.Reset | audio_engine/src/mixer.rs:75-77 | The handle's entry is rewound in place. The mixer's format and id counter are unchanged. |
| Handles.Sound.SetVolume | audio_engine/src/mixer.rs:81-83 | The handle's entry gets the volume. The mixer's format and id counter are unchanged. |
| Handles.Sound.SetLoop | audio_engine/src/mixer.rs:87-89 | The handle's entry gets the loop flag. The mixer's format and id counter are unchanged. |
| Handles.Sound.Effect | audio_engine/src/mixer.rs:93-95 | The handle's entry gets the effect. The mixer's format and id counter are unchanged. |
| Handles.Sound.Drop | audio_engine/src/mixer.rs:100-104 | Dropping the handle marks its entry for removal once it ends. It does not stop the sound. The mixer's format and id counter are unchanged. |

## Left out

- Locking. The `Arc<Mutex<Mixer>>` behind each handle and `lock().unwrap()` are not modelled. Handle methods are direct calls on the mixer.
- Floating point. The `f32` volume, the effect output and the product at audio_engine/src/mixer.rs:402 are modelled on reals, so `f32` rounding and NaN are not modelled.
- Effect closures. An effect is a total function `real -> real`. `FnMut` closures that keep state between calls are not modelled.
- Converter algorithms. `ChannelConverter` and `SampleRateConverter` are not part of this model. Here an adapter only changes the format the source reports. The samples pass through unchanged, and no resampling or channel mixing is modelled.
- The `Nop` placeholder that `set_config` swaps in while wrapping a source (audio_engine/src/mixer.rs:212-219, 230, 234). It is never observable.
- The `Box<T>` forwarding impl of `SoundSource` (audio_engine/src/mixer.rs:134-152). It is pure delegation.
- The mixer used as a nested `SoundSource`. Its `channels` and `sample_rate` (audio_engine/src/mixer.rs:359-366) are the fields `channels` and `sampleRate`; its `reset` (audio_engine/src/mixer.rs:369) does nothing.
- The id counter. `next_id` (audio_engine/src/mixer.rs:18-21) is a process-wide atomic `u64` shared by all mixers. Here each mixer has its own unbounded counter `nextId` starting at 0. Ids are fresh within one mixer, and `u64` wrap-around and sharing across mixers are not modelled.
- Buffer lengths that are a multiple of the channel count (audio_engine/src/mixer.rs:128-129). This is not required.
- Mixing.Mixer.AddSound: requires the added source's read position to lie within its samples. Any source a decoder produces satisfies this.
- Mixing.Mixer.WriteSamples: does not promise that every playing entry is mixed. The `else { break; }` at audio_engine/src/mixer.rs:411-414 ends the pass early when a retirement leaves no idle entry behind the boundary, and the remaining playing entries are then skipped for that buffer. This is modelled as written: the entries actually mixed are exactly `PassOrder`, but the general completeness clause of `Outcome` is proved only under the guard that some entry was idle when the pass began or no entry was removed.
- Mixing.Mixer.WriteSamples: when something plays, the output buffer is not zeroed first. The mix is added onto the buffer's previous contents, as written.

## Findings

| source | as written | input that shows it | evidently intended | confidence | as-written member | corrected member |
|---|---|---|---|---|---|---|
| audio_engine/src/mixer.rs:385-394 | On a short write the source is reset and, if the entry loops, the loop goes round again with no check that anything was written. | A looping entry whose source holds no samples. Every `write_samples` of the source returns 0, so `len` stays below the buffer length and the loop never ends. | A looping source that cannot deliver a sample right after a reset ends its turn, wrote short, and leaves the playing partition. | not executed | Playback.EmptyLoopingSourceSpins | Playback.Refill |

=== FILE: entries.dfy ===
/** The mixer's record of one sound (`SoundInner`) and what one of its
    samples adds to the output. */
module Entries {
  import opened Pcm
  import opened Sources
  import opened Playback

  /** `SoundInner`: the id, the owned source, the volume, the loop flag, the
      pending-removal flag set when the handle is dropped, and the effect
      applied to each sample. The `f32` volume and the effect closure are
      modelled on reals. */
  datatype Entry = Entry(id: nat, data: Source, volume: real, looping: bool, drop: bool, effect: real -> real)

  /** `SoundInner::new`: unit volume, not looping, not pending removal. */
  function NewEntry(id: nat, data: Source, effect: real -> real): (r: Entry)
    ensures r.id == id && r.data == data && r.effect == effect && r.volume == 1.0 && !r.looping && !r.drop
    ensures forall x: I16 :: Contribution(r, x) == CastI16(effect(x as real))
  {
    Entry(id, data, 1.0, false, false, effect)
  }

  /** One quantum of the sample range, `1 / i16::MAX`: a volume this close to
      1.0 is not applied at all. */
  const Quantum: real := 1.0 / 32767.0

  function Abs(x: real): real
  {
    if x < 0.0 then -x else x
  }

  /** The effect's output scaled by the volume, as an `f32` product. */
  function Scale(x: real, volume: real): real
  {
    x * volume
  }

  /** What one scratch sample `x` of the entry adds onto the output: the effect
      applied to it, scaled by the volume unless the volume is within a quantum
      of 1.0, then cast to `i16`. */
  function Contribution(e: Entry, x: I16): (r: I16)
    ensures Abs(e.volume - 1.0) < Quantum ==> r == CastI16(e.effect(x as real))
    ensures e.effect(x as real) == 0.0 ==> r == 0
    ensures 0.0 <= e.volume && 0.0 <= e.effect(x as real) ==> 0 <= r
    ensures e.volume <= 0.0 && 0.0 <= e.effect(x as real) ==> r <= 0
  {
    if Abs(e.volume - 1.0) < Quantum then CastI16(e.effect(x as real))
    else CastI16(Scale(e.effect(x as real), e.volume))
  }

  /** An entry at unit volume with the identity effect passes its samples
      through unchanged. */
  lemma UnitGainIsTransparent(e: Entry, x: I16)
    requires e.volume == 1.0 && forall r :: e.effect(r) == r
    ensures Contribution(e, x) == x
  {
    assert e.effect(x as real) == x as real;
  }

  /** The samples the entry delivers into an output buffer of `n` samples. */
  function EntryChunk(e: Entry, n: nat): seq<I16>
    requires Valid(e.data)
  {
    Chunk(e.data, e.looping, n)
  }

  /** The entry wrote short (`len < buffer.len()`): its pass over the source
      ended in this buffer. A looping entry whose source has samples never
      finishes, nor does any entry asked for no samples. */
  predicate Finished(e: Entry, n: nat)
    requires Valid(e.data)
    ensures e.looping && |e.data.samples| > 0 ==> !Finished(e, n)
    ensures n == 0 ==> !Finished(e, n)
    ensures !e.looping && |Remaining(e.data)| < n ==> Finished(e, n)
  {
    |EntryChunk(e, n)| < n
  }

  /** The entry after the refill: only its source has moved. */
  function Advance(e: Entry, n: nat): (r: Entry)
    requires Valid(e.data)
    ensures Valid(r.data) && r.data.samples == e.data.samples
    ensures r == e.(data := r.data)
  {
    e.(data := After(e.data, e.looping, n))
  }

  /** An entry finishes exactly when it is not a looping entry with samples
      and less than a buffer of its source remains; a finished entry's source
      is rewound to its start, ready to be played again. */
  lemma FinishedIffExhausted(e: Entry, n: nat)
    requires Valid(e.data)
    ensures Finished(e, n) <==> !(e.looping && |e.data.samples| > 0) && |Remaining(e.data)| < n
    ensures Finished(e, n) ==> Advance(e, n).data.pos == 0
    ensures !Finished(e, n) ==> |EntryChunk(e, n)| == n
  {
  }
}

=== FILE: handles.dfy ===
/** The handle an application keeps for one sound it added. Each method
    forwards to the shared mixer's keyed operation with the handle's id, so
    what each does to the mixer is stated by the partition functions of
    `Lineups`, and the mixer's format and id counter are left alone. Dropping
    the handle does not stop the sound; it marks the entry for removal once
    it ends. */
module Handles {
  import opened Lineups
  import opened Mixing

  class Sound {
    const mixer: Mixer
    const id: nat

    constructor (mixer: Mixer, id: nat)
      ensures this.mixer == mixer && this.id == id
    {
      this.mixer := mixer;
      this.id := id;
    }

    /** `Sound::play`. */
    method Play()
      requires mixer.Valid()
      modifies mixer
      ensures mixer.Valid() && mixer.View() == Lineups.Play(old(mixer.View()), id)
      ensures mixer.channels == old(mixer.channels) && mixer.sampleRate == old(mixer.sampleRate)
      ensures mixer.nextId == old(mixer.nextId)
    {
      mixer.Play(id);
    }

    /** `Sound::pause`. */
    method Pause()
      requires mixer.Valid()
      modifies mixer
      ensures mixer.Valid() && mixer.View() == Lineups.Pause(old(mixer.View()), id)
      ensures mixer.channels == old(mixer.channels) && mixer.sampleRate == old(mixer.sampleRate)
      ensures mixer.nextId == old(mixer.nextId)
    {
      mixer.Pause(id);
    }

    /** `Sound::stop`. */
    method Stop()
      requires mixer.Valid()
      modifies mixer
      ensures mixer.Valid() && mixer.View() == Lineups.Stop(old(mixer.View()), id)
      ensures mixer.channels == old(mixer.channels) && mixer.sampleRate == old(mixer.sampleRate)
      ensures mixer.nextId == old(mixer.nextId)
    {
      mixer.Stop(id);
    }

    /** `Sound::reset`. */
    method Reset()
      requires mixer.Valid()
      modifies mixer
      ensures mixer.Valid() && mixer.View() == Update(old(mixer.View()), id, Rewind)
      ensures mixer.channels == old(mixer.channels) && mixer.sampleRate == old(mixer.sampleRate)
      ensures mixer.nextId == old(mixer.nextId)
    {
      mixer.Reset(id);
    }

    /** `Sound::set_volume`. */
    method SetVolume(volume: real)
      requires mixer.Valid()
      modifies mixer
      ensures mixer.Valid() && mixer.View() == Update(old(mixer.View()), id, Edit.SetVolume(volume))
      ensures mixer.channels == old(mixer.channels) && mixer.sampleRate == old(mixer.sampleRate)
      ensures mixer.nextId == old(mixer.nextId)
    {
      mixer.SetVolume(id, volume);
    }

    /** `Sound::set_loop`. */
    method SetLoop(looping: bool)
      requires mixer.Valid()
      modifies mixer
      ensures mixer.Valid() && mixer.View() == Update(old(mixer.View()), id, Edit.SetLoop(looping))
      ensures mixer.channels == old(mixer.channels) && mixer.sampleRate == old(mixer.sampleRate)
      ensures mixer.nextId == old(mixer.nextId)
    {
      mixer.SetLoop(id, looping);
    }

    /** `Sound::effect`. */
    method Effect(effect: real -> real)
      requires mixer.Valid()
      modifies mixer
      ensures mixer.Valid() && mixer.View() == Update(old(mixer.View()), id, SetEffect(effect))
      ensures mixer.channels == old(mixer.channels) && mixer.sampleRate == old(mixer.sampleRate)
      ensures mixer.nextId == old(mixer.nextId)
    {
      mixer.UpdateEffect(id, effect);
    }

    /** `Drop for Sound`: the entry keeps playing and is removed when it ends. */
    method Drop()
      requires mixer.Valid()
      modifies mixer
      ensures mixer.Valid() && mixer.View() == Update(old(mixer.View()), id, MarkDrop)
      ensures mixer.channels == old(mixer.channels) && mixer.sampleRate == old(mixer.sampleRate)
      ensures mixer.nextId == old(mixer.nextId)
    {
      mixer.DropSound(id);
    }
  }
}

=== FILE: lineups.dfy ===
/** The mixer's entries with the playing boundary, and the keyed lifecycle
    operations on them as functions of the old state. Indices `[0, playing)`
    hold the sounds producing audio, `[playing, |sounds|)` the paused and
    stopped ones. */
module Lineups {
  import opened Wrappers
  import opened Sources
  import opened Entries

  ghost predicate DistinctIds(s: seq<Entry>)
  {
    forall i, j :: 0 <= i < j < |s| ==> s[i].id != s[j].id
  }

  /** The ids held at indices `[lo, hi)`. */
  ghost function IdsIn(s: seq<Entry>, lo: nat, hi: nat): set<nat>
    requires lo <= hi <= |s|
  {
    set k | lo <= k < hi :: s[k].id
  }

  ghost function Ids(s: seq<Entry>): set<nat>
  {
    IdsIn(s, 0, |s|)
  }

  datatype Lineup = Lineup(sounds: seq<Entry>, playing: nat)
  {
    ghost predicate Valid()
    {
      && playing <= |sounds|
      && DistinctIds(sounds)
      && forall k :: 0 <= k < |sounds| ==> Sources.Valid(sounds[k].data)
    }

    ghost function PlayingIds(): set<nat>
      requires playing <= |sounds|
    {
      IdsIn(sounds, 0, playing)
    }

    ghost function IdleIds(): set<nat>
      requires playing <= |sounds|
    {
      IdsIn(sounds, playing, |sounds|)
    }
  }

  /** The reversed linear scan every keyed operation starts with: the last
      index in `[lo, hi)` whose entry has the id, or -1 when there is none. */
  function LastIndexOf(s: seq<Entry>, id: nat, lo: nat, hi: nat): (k: int)
    requires lo <= hi <= |s|
    ensures k == -1 || lo <= k < hi
    ensures k == -1 <==> forall j :: lo <= j < hi ==> s[j].id != id
    ensures k >= 0 ==> s[k].id == id && forall j :: k < j < hi ==> s[j].id != id
    decreases hi - lo
  {
    if lo == hi then -1
    else if s[hi - 1].id == id then hi - 1
    else LastIndexOf(s, id, lo, hi - 1)
  }

  /** With distinct ids the scan finds the one entry that has the id, and
      finds nothing exactly when the id is not in the range. */
  lemma LastIndexOfFinds(s: seq<Entry>, id: nat, lo: nat, hi: nat)
    requires lo <= hi <= |s| && DistinctIds(s)
    ensures LastIndexOf(s, id, lo, hi) >= 0 <==> id in IdsIn(s, lo, hi)
    ensures forall k :: lo <= k < hi && s[k].id == id ==> LastIndexOf(s, id, lo, hi) == k
  {
    var k := LastIndexOf(s, id, lo, hi);
    if id in IdsIn(s, lo, hi) {
      var j :| lo <= j < hi && s[j].id == id;
      assert k >= 0;
    }
  }

  /** `Vec::swap`. */
  function Swap(s: seq<Entry>, i: nat, j: nat): (r: seq<Entry>)
    requires i < |s| && j < |s|
    ensures |r| == |s| && r[i] == s[j] && r[j] == s[i]
    ensures forall k :: 0 <= k < |s| && k != i && k != j ==> r[k] == s[k]
  {
    s[i := s[j]][j := s[i]]
  }

  /** Swapping keeps the entries, so their ids stay distinct and their
      sources valid. */
  lemma SwapKeeps(s: seq<Entry>, i: nat, j: nat)
    requires i < |s| && j < |s|
    ensures multiset(Swap(s, i, j)) == multiset(s)
    ensures DistinctIds(s) ==> DistinctIds(Swap(s, i, j))
    ensures Ids(Swap(s, i, j)) == Ids(s)
  {
    SwapKeepsEntries(s, i, j);
    SwapKeepsIds(s, i, j);
  }

  /** A swap within a valid lineup gives a valid lineup, whatever boundary
      it then gets. */
  lemma SwapStaysValid(l: Lineup, i: nat, j: nat, playing: nat)
    requires l.Valid() && i < |l.sounds| && j < |l.sounds| && playing <= |l.sounds|
    ensures Lineup(Swap(l.sounds, i, j), playing).Valid()
  {
    SwapKeepsIds(l.sounds, i, j);
  }

  lemma SwapKeepsEntries(s: seq<Entry>, i: nat, j: nat)
    requires i < |s| && j < |s|
    ensures multiset(Swap(s, i, j)) == multiset(s)
  {
    var r := Swap(s, i, j);
    if i != j {
      var t := s[i := s[j]];
      assert multiset(t) == multiset(s) - multiset{s[i]} + multiset{s[j]};
      assert r == t[j := s[i]];
      assert multiset(r) == multiset(t) - multiset{s[j]} + multiset{s[i]};
    } else {
      assert r == s;
    }
  }

  lemma SwapKeepsIds(s: seq<Entry>, i: nat, j: nat)
    requires i < |s| && j < |s|
    ensures DistinctIds(s) ==> DistinctIds(Swap(s, i, j))
    ensures Ids(Swap(s, i, j)) == Ids(s)
  {
    var r := Swap(s, i, j);
    forall x | x in Ids(s) ensures x in Ids(r) {
      var k :| 0 <= k < |s| && s[k].id == x;
      var k' := if k == i then j else if k == j then i else k;
      assert r[k'].id == x;
    }
    forall x | x in Ids(r) ensures x in Ids(s) {
      var k :| 0 <= k < |r| && r[k].id == x;
      var k' := if k == i then j else if k == j then i else k;
      assert s[k'].id == x;
    }
  }

  /** `Mixer::play`: an idle entry with the id swaps with the first idle slot
      and the boundary grows over it; otherwise nothing changes. */
  function Play(l: Lineup, id: nat): (r: Lineup)
    requires l.playing <= |l.sounds|
    ensures r.playing <= |r.sounds| == |l.sounds|
  {
    var k := LastIndexOf(l.sounds, id, l.playing, |l.sounds|);
    if k < 0 then l else Lineup(Swap(l.sounds, l.playing, k), l.playing + 1)
  }

  /** `Mixer::pause`: a playing entry with the id swaps with the last playing
      slot and the boundary shrinks past it; otherwise nothing changes. */
  function Pause(l: Lineup, id: nat): (r: Lineup)
    requires l.playing <= |l.sounds|
    ensures r.playing <= |r.sounds| == |l.sounds|
  {
    var k := LastIndexOf(l.sounds, id, 0, l.playing);
    if k < 0 then l else Lineup(Swap(l.sounds, l.playing - 1, k), l.playing - 1)
  }

  /** The in-place changes the keyed setters make to one entry. */
  datatype Edit =
    | Rewind
    | SetVolume(volume: real)
    | SetLoop(looping: bool)
    | MarkDrop
    | SetEffect(effect: real -> real)

  /** The entry after one keyed edit: the id, the samples and the adapters
      are kept, and only the field the edit names changes. */
  function Edited(e: Entry, edit: Edit): (r: Entry)
    ensures r.id == e.id && r.data.samples == e.data.samples && r.data.layers == e.data.layers
    ensures edit.Rewind? ==> r.data.pos == 0 && r == e.(data := r.data)
    ensures !edit.Rewind? ==> r.data == e.data
    ensures !edit.SetVolume? ==> r.volume == e.volume
    ensures !edit.SetLoop? ==> r.looping == e.looping
    ensures !edit.MarkDrop? ==> r.drop == e.drop
  {
    match edit
    case Rewind => e.(data := Reset(e.data))
    case SetVolume(v) => e.(volume := v)
    case SetLoop(b) => e.(looping := b)
    case MarkDrop => e.(drop := true)
    case SetEffect(f) => e.(effect := f)
  }

  /** `Mixer::reset`, `set_volume`, `set_loop`, `drop_sound` and
      `update_effect`: scan the whole collection and edit the entry with the id
      in place; nothing happens when the id is absent. */
  function Update(l: Lineup, id: nat, edit: Edit): (r: Lineup)
    requires l.playing <= |l.sounds|
    ensures r.playing == l.playing <= |r.sounds| == |l.sounds|
  {
    var k := LastIndexOf(l.sounds, id, 0, |l.sounds|);
    if k < 0 then l else Lineup(l.sounds[k := Edited(l.sounds[k], edit)], l.playing)
  }

  /** `Mixer::stop`: rewind the entry with the id wherever it is, and if it was
      playing, demote it as `pause` does. */
  function Stop(l: Lineup, id: nat): (r: Lineup)
    requires l.playing <= |l.sounds|
    ensures r.playing <= |r.sounds| == |l.sounds|
  {
    var k := LastIndexOf(l.sounds, id, 0, |l.sounds|);
    if k < 0 then l
    else
      var s := l.sounds[k := Edited(l.sounds[k], Rewind)];
      if k < l.playing then Lineup(Swap(s, l.playing - 1, k), l.playing - 1)
      else Lineup(s, l.playing)
  }

  /** `Mixer::add_sound`: the new entry is appended behind the idle ones. */
  function Add(l: Lineup, e: Entry): (r: Lineup)
    requires l.playing <= |l.sounds|
    ensures r.playing <= |r.sounds| == |l.sounds| + 1
  {
    Lineup(l.sounds + [e], l.playing)
  }

  /** `Mixer::set_config` on the entries: every source is converted in place,
      in the same order. */
  function Reconfigure(l: Lineup, channels: U16, rate: U32): (r: Lineup)
    requires l.playing <= |l.sounds|
    ensures r.playing == l.playing <= |r.sounds| == |l.sounds|
  {
    Lineup(seq(|l.sounds|, k requires 0 <= k < |l.sounds| =>
             l.sounds[k].(data := Convert(l.sounds[k].data, channels, rate))), l.playing)
  }

  // Facts about the ids held in a range of indices.

  lemma IdsInSplit(s: seq<Entry>, lo: nat, mid: nat, hi: nat)
    requires lo <= mid <= hi <= |s|
    ensures IdsIn(s, lo, hi) == IdsIn(s, lo, mid) + IdsIn(s, mid, hi)
  {
    forall x | x in IdsIn(s, lo, hi) ensures x in IdsIn(s, lo, mid) + IdsIn(s, mid, hi) {
      var k :| lo <= k < hi && s[k].id == x;
      if k < mid { assert x in IdsIn(s, lo, mid); } else { assert x in IdsIn(s, mid, hi); }
    }
  }

  lemma IdsInOne(s: seq<Entry>, k: nat)
    requires k < |s|
    ensures IdsIn(s, k, k + 1) == {s[k].id}
  {
    assert s[k].id in IdsIn(s, k, k + 1);
  }

  lemma IdsInOutside(s: seq<Entry>, lo: nat, hi: nat, m: nat)
    requires lo <= hi <= |s| && m < |s| && !(lo <= m < hi) && DistinctIds(s)
    ensures s[m].id !in IdsIn(s, lo, hi)
  {
  }

  /** Ids in a range do not change when the two swapped slots are both in it
      or both outside it. */
  lemma IdsInSwap(s: seq<Entry>, i: nat, j: nat, lo: nat, hi: nat)
    requires i < |s| && j < |s| && lo <= hi <= |s|
    requires (lo <= i < hi) == (lo <= j < hi)
    ensures IdsIn(Swap(s, i, j), lo, hi) == IdsIn(s, lo, hi)
  {
    var r := Swap(s, i, j);
    forall x | x in IdsIn(s, lo, hi) ensures x in IdsIn(r, lo, hi) {
      var k :| lo <= k < hi && s[k].id == x;
      var k' := if k == i then j else if k == j then i else k;
      assert r[k'].id == x;
    }
    forall x | x in IdsIn(r, lo, hi) ensures x in IdsIn(s, lo, hi) {
      var k :| lo <= k < hi && r[k].id == x;
      var k' := if k == i then j else if k == j then i else k;
      assert s[k'].id == x;
    }
  }

  /** Replacing an entry by one with the same id keeps the ids everywhere. */
  lemma IdsInSameId(s: seq<Entry>, k: nat, e: Entry, lo: nat, hi: nat)
    requires k < |s| && e.id == s[k].id && lo <= hi <= |s|
    ensures IdsIn(s[k := e], lo, hi) == IdsIn(s, lo, hi)
    ensures DistinctIds(s) ==> DistinctIds(s[k := e])
  {
    var r := s[k := e];
    forall x | x in IdsIn(s, lo, hi) ensures x in IdsIn(r, lo, hi) {
      var m :| lo <= m < hi && s[m].id == x;
      assert r[m].id == x;
    }
    forall x | x in IdsIn(r, lo, hi) ensures x in IdsIn(s, lo, hi) {
      var m :| lo <= m < hi && r[m].id == x;
      assert s[m].id == x;
    }
  }

  // The keyed operations: what each does to the partition.

  /** `play` on an idle id moves that entry to the old boundary and grows the
      playing partition by exactly that id; on a playing or absent id it does
      nothing. No entry changes, so no read position moves. */
  lemma PlayMovesIntoPartition(l: Lineup, id: nat)
    requires l.Valid()
    ensures Play(l, id).Valid()
    ensures multiset(Play(l, id).sounds) == multiset(l.sounds)
    ensures Ids(Play(l, id).sounds) == Ids(l.sounds)
    ensures id in l.IdleIds() ==>
      && Play(l, id).playing == l.playing + 1
      && Play(l, id).sounds[l.playing].id == id
      && Play(l, id).PlayingIds() == l.PlayingIds() + {id}
      && Play(l, id).IdleIds() == l.IdleIds() - {id}
    ensures id !in l.IdleIds() ==> Play(l, id) == l
  {
    var s, p, n := l.sounds, l.playing, |l.sounds|;
    LastIndexOfFinds(s, id, p, n);
    var k := LastIndexOf(s, id, p, n);
    if k >= 0 {
      SwapKeepsEntries(s, p, k);
      PlayAt(l, k);
    }
  }

  /** Moving the idle entry at `k` to the boundary and growing the partition
      over it. */
  lemma PlayAt(l: Lineup, k: nat)
    requires l.Valid() && l.playing <= k < |l.sounds|
    ensures var r := Lineup(Swap(l.sounds, l.playing, k), l.playing + 1);
      && r.Valid()
      && Ids(r.sounds) == Ids(l.sounds)
      && r.sounds[l.playing] == l.sounds[k]
      && r.PlayingIds() == l.PlayingIds() + {l.sounds[k].id}
      && r.IdleIds() == l.IdleIds() - {l.sounds[k].id}
  {
    SwapKeepsIds(l.sounds, l.playing, k);
    SwapStaysValid(l, l.playing, k, l.playing + 1);
    PlaySets(l.sounds, l.playing, k);
  }

  lemma PlaySets(s: seq<Entry>, p: nat, k: nat)
    requires DistinctIds(s) && p <= k < |s|
    ensures DistinctIds(Swap(s, p, k))
    ensures IdsIn(Swap(s, p, k), 0, p + 1) == IdsIn(s, 0, p) + {s[k].id}
    ensures IdsIn(Swap(s, p, k), p + 1, |s|) == IdsIn(s, p, |s|) - {s[k].id}
  {
    var r, n := Swap(s, p, k), |s|;
    SwapKeepsIds(s, p, k);
    IdsInSwap(s, p, k, 0, p);
    IdsInSwap(s, p, k, p, n);
    IdsInSplit(r, 0, p, p + 1);
    IdsInOne(r, p);
    IdsInSplit(r, p, p + 1, n);
    IdsInOutside(r, p + 1, n, p);
  }

  /** `pause` on a playing id shrinks the playing partition by exactly that id
      and leaves the entry, untouched, at the new boundary; on an idle or
      absent id it does nothing. */
  lemma PauseMovesOutOfPartition(l: Lineup, id: nat)
    requires l.Valid()
    ensures Pause(l, id).Valid()
    ensures multiset(Pause(l, id).sounds) == multiset(l.sounds)
    ensures Ids(Pause(l, id).sounds) == Ids(l.sounds)
    ensures id in l.PlayingIds() ==>
      && Pause(l, id).playing == l.playing - 1
      && Pause(l, id).sounds[l.playing - 1] == l.sounds[LastIndexOf(l.sounds, id, 0, |l.sounds|)]
      && Pause(l, id).PlayingIds() == l.PlayingIds() - {id}
      && Pause(l, id).IdleIds() == l.IdleIds() + {id}
    ensures id !in l.PlayingIds() ==> Pause(l, id) == l
  {
    var s, p, n := l.sounds, l.playing, |l.sounds|;
    LastIndexOfFinds(s, id, 0, p);
    var k := LastIndexOf(s, id, 0, p);
    if k >= 0 {
      LastIndexOfFinds(s, id, 0, n);
      SwapKeepsEntries(s, p - 1, k);
      PauseAt(l, k);
    }
  }

  /** Moving the playing entry at `k` to the last playing slot and shrinking
      the partition past it. */
  lemma PauseAt(l: Lineup, k: nat)
    requires l.Valid() && k < l.playing
    ensures var r := Lineup(Swap(l.sounds, l.playing - 1, k), l.playing - 1);
      && r.Valid()
      && Ids(r.sounds) == Ids(l.sounds)
      && r.sounds[l.playing - 1] == l.sounds[k]
      && r.PlayingIds() == l.PlayingIds() - {l.sounds[k].id}
      && r.IdleIds() == l.IdleIds() + {l.sounds[k].id}
  {
    SwapKeepsIds(l.sounds, l.playing - 1, k);
    SwapStaysValid(l, l.playing - 1, k, l.playing - 1);
    PauseSets(l.sounds, l.playing, k);
  }

  lemma PauseSets(s: seq<Entry>, p: nat, k: nat)
    requires DistinctIds(s) && k < p <= |s|
    ensures DistinctIds(Swap(s, p - 1, k))
    ensures IdsIn(Swap(s, p - 1, k), 0, p - 1) == IdsIn(s, 0, p) - {s[k].id}
    ensures IdsIn(Swap(s, p - 1, k), p - 1, |s|) == IdsIn(s, p, |s|) + {s[k].id}
  {
    var r, n := Swap(s, p - 1, k), |s|;
    SwapKeepsIds(s, p - 1, k);
    IdsInSwap(s, p - 1, k, 0, p);
    IdsInSwap(s, p - 1, k, p, n);
    IdsInSplit(r, 0, p - 1, p);
    IdsInOne(r, p - 1);
    IdsInOutside(r, 0, p - 1, p - 1);
    IdsInSplit(r, p - 1, p, n);
  }

  /** The setters edit only the entry with the id, in place: the order, the
      boundary and every other entry stay as they were, and an absent id
      changes nothing. */
  lemma UpdateEditsOnlyTarget(l: Lineup, id: nat, edit: Edit)
    requires l.Valid()
    ensures Update(l, id, edit).Valid()
    ensures Update(l, id, edit).playing == l.playing
    ensures |Update(l, id, edit).sounds| == |l.sounds|
    ensures forall k :: 0 <= k < |l.sounds| ==>
      Update(l, id, edit).sounds[k] == if l.sounds[k].id == id then Edited(l.sounds[k], edit) else l.sounds[k]
    ensures Update(l, id, edit).PlayingIds() == l.PlayingIds()
    ensures Update(l, id, edit).IdleIds() == l.IdleIds()
    ensures Ids(Update(l, id, edit).sounds) == Ids(l.sounds)
    ensures id !in Ids(l.sounds) ==> Update(l, id, edit) == l
  {
    var s, p, n := l.sounds, l.playing, |l.sounds|;
    LastIndexOfFinds(s, id, 0, n);
    var k := LastIndexOf(s, id, 0, n);
    if k >= 0 {
      var e := Edited(s[k], edit);
      IdsInSameId(s, k, e, 0, p);
      IdsInSameId(s, k, e, p, n);
      IdsInSameId(s, k, e, 0, n);
    }
  }

  /** `stop` is the rewind edit followed by `pause`. */
  lemma StopIsRewindThenPause(l: Lineup, id: nat)
    requires l.Valid()
    ensures Stop(l, id) == Pause(Update(l, id, Rewind), id)
  {
    var s, p, n := l.sounds, l.playing, |l.sounds|;
    LastIndexOfFinds(s, id, 0, n);
    var k := LastIndexOf(s, id, 0, n);
    UpdateEditsOnlyTarget(l, id, Rewind);
    var u := Update(l, id, Rewind);
    LastIndexOfFinds(u.sounds, id, 0, p);
    if k >= 0 {
      assert u.sounds == s[k := Edited(s[k], Rewind)];
    }
  }

  /** `stop` rewinds the entry with the id whether or not it plays, and takes
      it out of the playing partition if it was in it; an absent id changes
      nothing. The entries are those of the rewind edit, reordered. */
  lemma StopRewindsAndDemotes(l: Lineup, id: nat)
    requires l.Valid()
    ensures Stop(l, id).Valid()
    ensures Ids(Stop(l, id).sounds) == Ids(l.sounds)
    ensures multiset(Stop(l, id).sounds) == multiset(Update(l, id, Rewind).sounds)
    ensures Stop(l, id).PlayingIds() == l.PlayingIds() - {id}
    ensures Stop(l, id).IdleIds() == l.IdleIds() + (Ids(l.sounds) * {id})
    ensures id !in Ids(l.sounds) ==> Stop(l, id) == l
  {
    StopIsRewindThenPause(l, id);
    UpdateEditsOnlyTarget(l, id, Rewind);
    StopPartition(l, Update(l, id, Rewind), id);
  }

  lemma StopPartition(l: Lineup, u: Lineup, id: nat)
    requires l.Valid() && u.Valid() && u.PlayingIds() == l.PlayingIds() && u.IdleIds() == l.IdleIds()
    requires Ids(u.sounds) == Ids(l.sounds) && (id !in Ids(l.sounds) ==> u == l)
    ensures Pause(u, id).Valid() && Ids(Pause(u, id).sounds) == Ids(l.sounds)
    ensures multiset(Pause(u, id).sounds) == multiset(u.sounds)
    ensures Pause(u, id).PlayingIds() == l.PlayingIds() - {id}
    ensures Pause(u, id).IdleIds() == l.IdleIds() + (Ids(l.sounds) * {id})
    ensures id !in Ids(l.sounds) ==> Pause(u, id) == l
  {
    PauseMovesOutOfPartition(u, id);
    IdsInSplit(l.sounds, 0, l.playing, |l.sounds|);
    if id in Ids(l.sounds) && id !in l.PlayingIds() {
      assert id in l.IdleIds();
    }
  }

  /** `add_sound` appends an entry with a fresh id to the idle partition. */
  lemma AddAppendsIdle(l: Lineup, e: Entry)
    requires l.Valid() && e.id !in Ids(l.sounds) && Sources.Valid(e.data)
    ensures Add(l, e).Valid()
    ensures Add(l, e).sounds[|l.sounds|] == e && Add(l, e).sounds[..|l.sounds|] == l.sounds
    ensures Add(l, e).PlayingIds() == l.PlayingIds()
    ensures Add(l, e).IdleIds() == l.IdleIds() + {e.id}
    ensures Ids(Add(l, e).sounds) == Ids(l.sounds) + {e.id}
  {
    var s, r := l.sounds, Add(l, e).sounds;
    forall k | 0 <= k < |s| ensures r[k].id != e.id {
      assert s[k].id in Ids(s);
    }
    assert r[..|s|] == s;
    IdsInSameRange(s, r, 0, l.playing);
    IdsInSameRange(s, r, l.playing, |s|);
    IdsInSameRange(s, r, 0, |s|);
    IdsInSplit(r, l.playing, |s|, |r|);
    IdsInSplit(r, 0, |s|, |r|);
    IdsInOne(r, |s|);
  }

  lemma IdsInSameRange(s: seq<Entry>, r: seq<Entry>, lo: nat, hi: nat)
    requires lo <= hi <= |s| && hi <= |r| && forall k :: lo <= k < hi ==> s[k] == r[k]
    ensures IdsIn(s, lo, hi) == IdsIn(r, lo, hi)
  {
    forall x | x in IdsIn(s, lo, hi) ensures x in IdsIn(r, lo, hi) {
      var k :| lo <= k < hi && s[k].id == x;
      assert r[k].id == x;
    }
  }

  /** `set_config` keeps every entry, in order and in its partition, with its
      read position; each source now reports the mixer's format. */
  lemma ReconfigureKeepsEntries(l: Lineup, channels: U16, rate: U32)
    requires l.Valid()
    ensures Reconfigure(l, channels, rate).Valid()
    ensures Reconfigure(l, channels, rate).playing == l.playing
    ensures |Reconfigure(l, channels, rate).sounds| == |l.sounds|
    ensures forall k :: 0 <= k < |l.sounds| ==>
      var e, e' := l.sounds[k], Reconfigure(l, channels, rate).sounds[k];
      && e' == e.(data := e'.data)
      && Channels(e'.data) == channels && SampleRate(e'.data) == rate
      && e'.data.samples == e.data.samples && e'.data.pos == e.data.pos
  {
    var r := Reconfigure(l, channels, rate);
    forall k | 0 <= k < |l.sounds|
      ensures Channels(r.sounds[k].data) == channels && SampleRate(r.sounds[k].data) == rate
      ensures r.sounds[k].data.samples == l.sounds[k].data.samples && r.sounds[k].data.pos == l.sounds[k].data.pos
    {
      ConvertMatchesFormat(l.sounds[k].data, channels, rate);
    }
  }

  // Sequences of play, pause and stop commands.

  datatype Command = PlayCmd(id: nat) | PauseCmd(id: nat) | StopCmd(id: nat)

  function Apply(l: Lineup, c: Command): (r: Lineup)
    requires l.playing <= |l.sounds|
    ensures r.playing <= |r.sounds| == |l.sounds|
  {
    match c
    case PlayCmd(id) => Play(l, id)
    case PauseCmd(id) => Pause(l, id)
    case StopCmd(id) => Stop(l, id)
  }

  function Run(l: Lineup, cs: seq<Command>): (r: Lineup)
    requires l.playing <= |l.sounds|
    ensures r.playing <= |r.sounds| == |l.sounds|
  {
    if cs == [] then l else Apply(Run(l, cs[..|cs| - 1]), cs[|cs| - 1])
  }

  /** The last command about `id`, if any. */
  function LastCommandFor(cs: seq<Command>, id: nat): Option<Command>
  {
    if cs == [] then None
    else if cs[|cs| - 1].id == id then Some(cs[|cs| - 1])
    else LastCommandFor(cs[..|cs| - 1], id)
  }

  /** One command keeps the lineup valid, keeps its ids, and changes the
      playing status of its own id only: play makes it playing, pause and stop
      make it idle. */
  lemma ApplyDecides(l: Lineup, c: Command)
    requires l.Valid()
    ensures Apply(l, c).Valid() && Ids(Apply(l, c).sounds) == Ids(l.sounds)
    ensures Apply(l, c).PlayingIds() - {c.id} == l.PlayingIds() - {c.id}
    ensures c.id in Ids(l.sounds) ==> (c.id in Apply(l, c).PlayingIds() <==> c.PlayCmd?)
  {
    IdsInSplit(l.sounds, 0, l.playing, |l.sounds|);
    match c
    case PlayCmd(id) => PlayMovesIntoPartition(l, id);
    case PauseCmd(id) => PauseMovesOutOfPartition(l, id);
    case StopCmd(id) => StopRewindsAndDemotes(l, id);
  }

  /** After any sequence of play, pause and stop commands a sound is playing
      exactly when the last command about it was play (or, with no command
      about it, when it was playing to begin with). */
  lemma {:induction false} RunDecidesPlaying(l: Lineup, cs: seq<Command>, id: nat)
    requires l.Valid() && id in Ids(l.sounds)
    ensures Run(l, cs).Valid() && Ids(Run(l, cs).sounds) == Ids(l.sounds)
    ensures id in Run(l, cs).PlayingIds() <==>
      match LastCommandFor(cs, id)
      case None => id in l.PlayingIds()
      case Some(c) => c.PlayCmd?
  {
    if cs != [] {
      var init, c := cs[..|cs| - 1], cs[|cs| - 1];
      RunDecidesPlaying(l, init, id);
      ApplyDecides(Run(l, init), c);
    }
  }
}

=== FILE: mixer.dfy ===
/** The `Mixer`: the entries with the playing boundary, the output format and
    the id counter, updated in place by the keyed operations and by
    `write_samples`. Each method is proved against the function of the old
    state in `Lineups` (or the pass specification in `MixPass`) whose
    properties are proved there. */
module Mixing {
  import opened Pcm
  import opened Sources
  import opened Playback
  import opened Entries
  import opened Lineups
  import opened MixPass

  /** The two mixing loops of `write_samples`: every scratch sample the entry
      wrote is saturating-added onto the output sample at the same index; the
      unit-volume test is made once, outside the loops. */
  method MixInto(buffer: array<I16>, chunk: seq<I16>, e: Entry)
    requires |chunk| <= buffer.Length
    modifies buffer
    ensures buffer[..] == AddChunk(old(buffer[..]), chunk, e)
  {
    if Abs(e.volume - 1.0) < Quantum {
      MixUnitGain(buffer, chunk, e);
    } else {
      MixScaled(buffer, chunk, e);
    }
  }

  method MixUnitGain(buffer: array<I16>, chunk: seq<I16>, e: Entry)
    requires |chunk| <= buffer.Length && Abs(e.volume - 1.0) < Quantum
    modifies buffer
    ensures buffer[..] == AddChunk(old(buffer[..]), chunk, e)
  {
    for i := 0 to |chunk|
      invariant forall k :: 0 <= k < i ==> buffer[k] == SatAdd(old(buffer[k]), Contribution(e, chunk[k]))
      invariant forall k :: i <= k < buffer.Length ==> buffer[k] == old(buffer[k])
    {
      buffer[i] := SatAdd(buffer[i], CastI16(e.effect(chunk[i] as real)));
    }
    assert buffer[..] == AddChunk(old(buffer[..]), chunk, e);
  }

  method MixScaled(buffer: array<I16>, chunk: seq<I16>, e: Entry)
    requires |chunk| <= buffer.Length && !(Abs(e.volume - 1.0) < Quantum)
    modifies buffer
    ensures buffer[..] == AddChunk(old(buffer[..]), chunk, e)
  {
    for i := 0 to |chunk|
      invariant forall k :: 0 <= k < i ==> buffer[k] == SatAdd(old(buffer[k]), Contribution(e, chunk[k]))
      invariant forall k :: i <= k < buffer.Length ==> buffer[k] == old(buffer[k])
    {
      buffer[i] := SatAdd(buffer[i], CastI16(Scale(e.effect(chunk[i] as real), e.volume)));
    }
    assert buffer[..] == AddChunk(old(buffer[..]), chunk, e);
  }

  class Mixer {
    var sounds: seq<Entry>
    var playing: nat
    var channels: U16
    var sampleRate: U32
    /** The next id `next_id` hands out. */
    var nextId: nat

    function View(): Lineup
      reads this
    {
      Lineup(sounds, playing)
    }

    /** The boundary lies within the entries, ids are distinct and all were
        handed out already, every source is within its samples. */
    ghost predicate Valid()
      reads this
    {
      && View().Valid()
      && forall x :: x in Ids(sounds) ==> x < nextId
    }

    /** `Mixer::new`: no entries, nothing playing. */
    constructor (channels: U16, sampleRate: U32)
      ensures Valid() && sounds == [] && playing == 0
      ensures this.channels == channels && this.sampleRate == sampleRate && nextId == 0
    {
      sounds, playing := [], 0;
      this.channels, this.sampleRate := channels, sampleRate;
      nextId := 0;
    }

    /** The reversed scan over `[lo, hi)` each keyed operation makes. */
    method IndexOf(id: nat, lo: nat, hi: nat) returns (k: int)
      requires lo <= hi <= |sounds|
      ensures k == LastIndexOf(sounds, id, lo, hi)
    {
      var i := hi;
      while i > lo
        invariant lo <= i <= hi
        invariant forall j :: i <= j < hi ==> sounds[j].id != id
      {
        i := i - 1;
        if sounds[i].id == id {
          return i;
        }
      }
      return -1;
    }

    /** `Mixer::set_config`: when the format differs from the current one,
        every source is wrapped in the converters it needs, in place, and the
        format is updated; otherwise nothing happens. */
    method SetConfig(channels: U16, sampleRate: U32)
      requires Valid()
      modifies this
      ensures Valid() && nextId == old(nextId)
      ensures this.channels == channels && this.sampleRate == sampleRate
      ensures old(this.channels) == channels && old(this.sampleRate) == sampleRate ==> View() == old(View())
      ensures old(this.channels) != channels || old(this.sampleRate) != sampleRate ==>
        View() == Reconfigure(old(View()), channels, sampleRate)
    {
      if this.channels == channels && this.sampleRate == sampleRate {
        return;
      }
      for i := 0 to |sounds|
        invariant |sounds| == |old(sounds)| && playing == old(playing) && nextId == old(nextId)
        invariant forall k :: 0 <= k < i ==> sounds[k] == old(sounds)[k].(data := Convert(old(sounds)[k].data, channels, sampleRate))
        invariant forall k :: i <= k < |sounds| ==> sounds[k] == old(sounds)[k]
      {
        var data := sounds[i].data;
        if Channels(data) != channels {
          data := ChannelConverter(data, channels);
        }
        if SampleRate(data) != sampleRate {
          data := RateConverter(data, sampleRate);
        }
        sounds := sounds[i := sounds[i].(data := data)];
      }
      assert View() == Reconfigure(old(View()), channels, sampleRate);
      ReconfigureKeepsEntries(old(View()), channels, sampleRate);
      IdsInSameIds(old(sounds), sounds);
      this.channels, this.sampleRate := channels, sampleRate;
    }

    /** `Mixer::add_sound`: the entry gets the next id and is appended, idle. */
    method AddSound(data: Source, effect: real -> real) returns (id: nat)
      requires Valid() && Sources.Valid(data)
      modifies this
      ensures Valid() && id == old(nextId) && nextId == old(nextId) + 1
      ensures View() == Add(old(View()), NewEntry(id, data, effect))
      ensures channels == old(channels) && sampleRate == old(sampleRate)
    {
      id := nextId;
      nextId := nextId + 1;
      AddAppendsIdle(View(), NewEntry(id, data, effect));
      sounds := sounds + [NewEntry(id, data, effect)];
    }

    method Play(id: nat)
      requires Valid()
      modifies this
      ensures Valid() && View() == Lineups.Play(old(View()), id)
      ensures channels == old(channels) && sampleRate == old(sampleRate) && nextId == old(nextId)
    {
      PlayMovesIntoPartition(View(), id);
      var i := IndexOf(id, playing, |sounds|);
      if i >= 0 {
        sounds := Swap(sounds, playing, i);
        playing := playing + 1;
      }
    }

    method Pause(id: nat)
      requires Valid()
      modifies this
      ensures Valid() && View() == Lineups.Pause(old(View()), id)
      ensures channels == old(channels) && sampleRate == old(sampleRate) && nextId == old(nextId)
    {
      PauseMovesOutOfPartition(View(), id);
      var i := IndexOf(id, 0, playing);
      if i >= 0 {
        playing := playing - 1;
        sounds := Swap(sounds, playing, i);
      }
    }

    method Stop(id: nat)
      requires Valid()
      modifies this
      ensures Valid() && View() == Lineups.Stop(old(View()), id)
      ensures channels == old(channels) && sampleRate == old(sampleRate) && nextId == old(nextId)
    {
      ghost var l := View();
      var i := IndexOf(id, 0, |sounds|);
      if i >= 0 {
        sounds := sounds[i := sounds[i].(data := Sources.Reset(sounds[i].data))];
        if i < playing {
          playing := playing - 1;
          sounds := Swap(sounds, playing, i);
        }
      }
      assert View() == Lineups.Stop(l, id);
      StopRewindsAndDemotes(l, id);
      assert Ids(sounds) == Ids(l.sounds);
    }

    /** `Mixer::reset`. */
    method Reset(id: nat)
      requires Valid()
      modifies this
      ensures Valid() && View() == Update(old(View()), id, Rewind)
      ensures channels == old(channels) && sampleRate == old(sampleRate) && nextId == old(nextId)
    {
      UpdateEditsOnlyTarget(View(), id, Rewind);
      var i := IndexOf(id, 0, |sounds|);
      if i >= 0 {
        sounds := sounds[i := sounds[i].(data := Sources.Reset(sounds[i].data))];
      }
    }

    method SetVolume(id: nat, volume: real)
      requires Valid()
      modifies this
      ensures Valid() && View() == Update(old(View()), id, Edit.SetVolume(volume))
      ensures channels == old(channels) && sampleRate == old(sampleRate) && nextId == old(nextId)
    {
      UpdateEditsOnlyTarget(View(), id, Edit.SetVolume(volume));
      var i := IndexOf(id, 0, |sounds|);
      if i >= 0 {
        sounds := sounds[i := sounds[i].(volume := volume)];
      }
    }

    method SetLoop(id: nat, looping: bool)
      requires Valid()
      modifies this
      ensures Valid() && View() == Update(old(View()), id, Edit.SetLoop(looping))
      ensures channels == old(channels) && sampleRate == old(sampleRate) && nextId == old(nextId)
    {
      UpdateEditsOnlyTarget(View(), id, Edit.SetLoop(looping));
      var i := IndexOf(id, 0, |sounds|);
      if i >= 0 {
        sounds := sounds[i := sounds[i].(looping := looping)];
      }
    }

    method DropSound(id: nat)
      requires Valid()
      modifies this
      ensures Valid() && View() == Update(old(View()), id, MarkDrop)
      ensures channels == old(channels) && sampleRate == old(sampleRate) && nextId == old(nextId)
    {
      UpdateEditsOnlyTarget(View(), id, MarkDrop);
      var i := IndexOf(id, 0, |sounds|);
      if i >= 0 {
        sounds := sounds[i := sounds[i].(drop := true)];
      }
    }

    method UpdateEffect(id: nat, effect: real -> real)
      requires Valid()
      modifies this
      ensures Valid() && View() == Update(old(View()), id, SetEffect(effect))
      ensures channels == old(channels) && sampleRate == old(sampleRate) && nextId == old(nextId)
    {
      UpdateEditsOnlyTarget(View(), id, SetEffect(effect));
      var i := IndexOf(id, 0, |sounds|);
      if i >= 0 {
        sounds := sounds[i := sounds[i].(effect := effect)];
      }
    }

    /** The inner loop of `write_samples` on the entry at `s`: its source
        writes one buffer of `n` samples (rewinding, and for a looping entry
        starting over, when it runs out) and is left where it stopped. */
    method RefillAt(s: nat, n: nat) returns (chunk: seq<I16>)
      requires s < |sounds| && Sources.Valid(sounds[s].data)
      modifies this
      ensures sounds == old(sounds)[s := Advance(old(sounds)[s], n)]
      ensures playing == old(playing) && channels == old(channels) && sampleRate == old(sampleRate) && nextId == old(nextId)
      ensures chunk == EntryChunk(old(sounds)[s], n) && |chunk| <= n
      ensures |chunk| < n <==> Finished(old(sounds)[s], n)
    {
      var e := sounds[s];
      var next;
      chunk, next := Refill(e.data, e.looping, n);
      FinishedIffExhausted(e, n);
      sounds := sounds[s := e.(data := next)];
    }

    /** The end of a turn for the entry at `s` that wrote short: it is
        swap-removed when marked for removal, the boundary shrinks, and the
        entry now at `s` trades places with the last playing one unless the
        pass stops. */
    method RetireAt(s: nat) returns (stop: bool)
      requires s < playing <= |sounds|
      modifies this
      ensures (sounds, playing, stop) == Retire(old(sounds), s, old(playing), old(sounds)[s].drop)
      ensures channels == old(channels) && sampleRate == old(sampleRate) && nextId == old(nextId)
    {
      if sounds[s].drop {
        sounds := SwapRemove(sounds, s);
      }
      playing := playing - 1;
      if playing > 0 && playing < |sounds| {
        sounds := Swap(sounds, s, playing);
        stop := false;
      } else {
        stop := true;
      }
    }

    /** `SoundSource::write_samples` of the mixer. With nothing playing the
        buffer is silenced. Otherwise each playing entry, in the order the
        pass reaches it (`mixed`), writes one buffer of samples from its
        source and adds its contribution onto the buffer's current contents;
        what became of every entry is `Outcome`. The whole buffer counts as
        written. */
    method WriteSamples(buffer: array<I16>) returns (written: nat, ghost mixed: seq<Entry>)
      requires Valid()
      modifies this, buffer
      ensures written == buffer.Length && Valid()
      ensures channels == old(channels) && sampleRate == old(sampleRate) && nextId == old(nextId)
      ensures old(playing) == 0 ==>
        && sounds == old(sounds) && playing == 0 && mixed == []
        && forall i :: 0 <= i < buffer.Length ==> buffer[i] == 0
      ensures old(playing) > 0 ==> MixedBuffer(buffer[..], old(buffer[..]), mixed, buffer.Length)
      ensures MixLog(old(sounds), old(playing), mixed, Ids(mixed))
      ensures mixed == PassOrder(old(sounds), old(playing), buffer.Length, 0)
      ensures View() == PassLineup(old(sounds), old(playing), buffer.Length, 0)
      ensures (forall j :: 0 <= j < old(playing) ==> !Finished(old(sounds)[j], buffer.Length)) ==>
        mixed == old(sounds)[..old(playing)]
      ensures Outcome(old(sounds), old(playing), buffer.Length, Ids(mixed), sounds, playing)
    {
      if playing == 0 {
        for i := 0 to buffer.Length
          modifies buffer
          invariant forall k :: 0 <= k < i ==> buffer[k] == 0
        {
          buffer[i] := 0;
        }
        mixed := [];
        PassStarts(sounds, playing, buffer.Length);
        PassEnds(sounds, playing, buffer.Length, {}, sounds, playing, 0);
        return buffer.Length, mixed;
      }
      mixed := MixPlaying(buffer);
      return buffer.Length, mixed;
    }

    /** The part of `write_samples` after the early return: the pass over the
        playing entries. */
    method MixPlaying(buffer: array<I16>) returns (ghost mixed: seq<Entry>)
      requires Valid() && playing > 0
      modifies this, buffer
      ensures Valid()
      ensures channels == old(channels) && sampleRate == old(sampleRate) && nextId == old(nextId)
      ensures MixedBuffer(buffer[..], old(buffer[..]), mixed, buffer.Length)
      ensures MixLog(old(sounds), old(playing), mixed, Ids(mixed))
      ensures mixed == PassOrder(old(sounds), old(playing), buffer.Length, 0)
      ensures View() == PassLineup(old(sounds), old(playing), buffer.Length, 0)
      ensures (forall j :: 0 <= j < old(playing) ==> !Finished(old(sounds)[j], buffer.Length)) ==>
        mixed == old(sounds)[..old(playing)]
      ensures Outcome(old(sounds), old(playing), buffer.Length, Ids(mixed), sounds, playing)
    {
      var n := buffer.Length;
      mixed := [];
      ghost var o, p0 := sounds, playing;
      ghost var done: set<nat> := {};
      ghost var stopped := false;
      PassStarts(o, p0, n);
      assert MixedBuffer(buffer[..], old(buffer[..]), mixed, n);
      OrderStarts(o, p0, n);
      var s := 0;
      while s < playing
        invariant PassInv(o, p0, n, done, sounds, playing, s)
        invariant MixLog(o, p0, mixed, done)
        invariant MixedBuffer(buffer[..], old(buffer[..]), mixed, n)
        invariant OrderInv(o, p0, n, mixed, sounds, playing, s)
        invariant channels == old(channels) && sampleRate == old(sampleRate) && nextId == old(nextId)
        invariant !stopped
        decreases playing - s
      {
        var e := sounds[s];
        ghost var j0 := CurrentEntry(o, p0, n, done, sounds, playing, s);
        ghost var before, doneBefore, playingBefore, mixedBefore := sounds, done, playing, mixed;
        var chunk := RefillAt(s, n);
        MixedBufferGrows(buffer[..], old(buffer[..]), mixed, e, n);
        MixInto(buffer, chunk, e);
        MixLogGrows(o, p0, mixed, done, j0);
        mixed := mixed + [e];
        done := done + {e.id};
        if |chunk| < n {
          StepRetired(o, p0, n, doneBefore, before, playingBefore, s, j0);
          OrderStepRetired(o, p0, n, mixedBefore, before, playingBefore, s);
          var stop := RetireAt(s);
          if stop {
            PassEnds(o, p0, n, done, sounds, playing, s);
            stopped := true;
            break;
          }
        } else {
          StepFilled(o, p0, n, doneBefore, before, playingBefore, s, j0);
          OrderStepFilled(o, p0, n, mixedBefore, before, playingBefore, s);
          s := s + 1;
        }
      }
      if !stopped {
        PassEnds(o, p0, n, done, sounds, playing, s);
        OrderEnds(o, p0, n, mixed, sounds, playing, s);
      }
      PassOrderWhole(o, p0, n);
      IdsOutcome(o, p0, n, done, sounds, playing);
    }
  }

  /** Entries whose ids agree position by position have the same ids. */
  lemma IdsInSameIds(s: seq<Entry>, r: seq<Entry>)
    requires |s| == |r| && forall k :: 0 <= k < |s| ==> s[k].id == r[k].id
    ensures Ids(s) == Ids(r)
  {
    forall x | x in Ids(s) ensures x in Ids(r) {
      var k :| 0 <= k < |s| && s[k].id == x;
      assert r[k].id == x;
    }
  }

  /** After a pass the ids left are among those before it. */
  lemma IdsOutcome(o: seq<Entry>, p0: nat, n: nat, done: set<nat>, sounds: seq<Entry>, playing: nat)
    requires Lineup(o, p0).Valid() && Outcome(o, p0, n, done, sounds, playing)
    ensures Ids(sounds) <= Ids(o)
  {
  }
}

=== FILE: mixpass.dfy ===
/** The specification of one call of the mixer's `write_samples`: what the
    output buffer holds afterwards, and what becomes of every entry. The pass
    walks the playing entries with a cursor `s`; an entry that finishes is
    moved out of the playing partition (and removed when it was marked for
    removal) and the cursor stays, so that the entry swapped into its slot is
    mixed next. */
module MixPass {
  import opened Pcm
  import opened Sources
  import opened Entries
  import opened Lineups

  /** `Vec::swap_remove`: the last entry takes the place of the removed one. */
  function SwapRemove(s: seq<Entry>, i: nat): (r: seq<Entry>)
    requires i < |s|
    ensures |r| == |s| - 1
    ensures i < |r| ==> r[i] == s[|s| - 1]
    ensures forall k :: 0 <= k < |r| && k != i ==> r[k] == s[k]
  {
    s[i := s[|s| - 1]][..|s| - 1]
  }

  /** Removing an entry takes exactly its id out and keeps the others
      distinct. */
  lemma SwapRemoveIds(s: seq<Entry>, i: nat)
    requires i < |s| && DistinctIds(s)
    ensures DistinctIds(SwapRemove(s, i))
    ensures Ids(SwapRemove(s, i)) == Ids(s) - {s[i].id}
  {
    var r, last := SwapRemove(s, i), |s| - 1;
    forall a, b | 0 <= a < b < |r| ensures r[a].id != r[b].id {
      var a', b' := if a == i then last else a, if b == i then last else b;
      assert r[a] == s[a'] && r[b] == s[b'];
    }
    forall x | x in Ids(s) - {s[i].id} ensures x in Ids(r) {
      var k :| 0 <= k < |s| && s[k].id == x;
      var k' := if k == last then i else k;
      assert r[k'].id == x;
    }
    forall x | x in Ids(r) ensures x in Ids(s) - {s[i].id} {
      var k :| 0 <= k < |r| && r[k].id == x;
      var k' := if k == i then last else k;
      assert s[k'].id == x;
    }
  }

  ghost predicate AllValid(s: seq<Entry>)
  {
    forall m :: 0 <= m < |s| ==> Sources.Valid(s[m].data)
  }

  /** The output sample at index `i` of an `n`-sample buffer after the entries
      of `mixed` were added onto `base`, in that order: each entry saturating-
      adds the contribution of its chunk's sample `i`, when its chunk reaches
      that far. */
  ghost function MixedValue(base: I16, mixed: seq<Entry>, n: nat, i: nat): I16
    requires AllValid(mixed)
    decreases |mixed|
  {
    if mixed == [] then base
    else
      var e := mixed[|mixed| - 1];
      var prev := MixedValue(base, mixed[..|mixed| - 1], n, i);
      var c := EntryChunk(e, n);
      if i < |c| then SatAdd(prev, Contribution(e, c[i])) else prev
  }

  /** A sample beyond the end of every mixed chunk keeps its old value. */
  lemma {:induction false} MixedValueBeyondChunks(base: I16, mixed: seq<Entry>, n: nat, i: nat)
    requires AllValid(mixed)
    requires forall m :: 0 <= m < |mixed| ==> |EntryChunk(mixed[m], n)| <= i
    ensures MixedValue(base, mixed, n, i) == base
    decreases |mixed|
  {
    if mixed != [] {
      var init := mixed[..|mixed| - 1];
      assert forall m :: 0 <= m < |init| ==> init[m] == mixed[m];
      MixedValueBeyondChunks(base, init, n, i);
    }
  }

  /** Mixing entries whose effect silences them leaves the buffer as it was. */
  lemma {:induction false} SilencedEntriesChangeNothing(base: I16, mixed: seq<Entry>, n: nat, i: nat)
    requires AllValid(mixed)
    requires forall m, r :: 0 <= m < |mixed| ==> mixed[m].effect(r) == 0.0
    ensures MixedValue(base, mixed, n, i) == base
    decreases |mixed|
  {
    if mixed != [] {
      var init := mixed[..|mixed| - 1];
      assert forall m :: 0 <= m < |init| ==> init[m] == mixed[m];
      SilencedEntriesChangeNothing(base, init, n, i);
      var e := mixed[|mixed| - 1];
      var c := EntryChunk(e, n);
      if i < |c| {
        assert e.effect(c[i] as real) == 0.0;
        assert Contribution(e, c[i]) == 0;
      }
    }
  }

  /** One entry at unit volume with the identity effect, mixed onto a silent
      buffer, reproduces its chunk and leaves silence after it. */
  lemma SoloEntryCopiesChunk(e: Entry, n: nat, i: nat)
    requires Sources.Valid(e.data)
    requires e.volume == 1.0 && forall r :: e.effect(r) == r
    ensures MixedValue(0, [e], n, i) == if i < |EntryChunk(e, n)| then EntryChunk(e, n)[i] else 0
  {
    assert [e][..0] == [];
    var c := EntryChunk(e, n);
    if i < |c| {
      UnitGainIsTransparent(e, c[i]);
    }
  }

  /** Appending one more entry to the mixed ones adds its contribution. */
  lemma MixedValueAppend(base: I16, mixed: seq<Entry>, e: Entry, n: nat, i: nat)
    requires AllValid(mixed) && Sources.Valid(e.data)
    ensures AllValid(mixed + [e])
    ensures MixedValue(base, mixed + [e], n, i) ==
      var prev := MixedValue(base, mixed, n, i);
      if i < |EntryChunk(e, n)| then SatAdd(prev, Contribution(e, EntryChunk(e, n)[i])) else prev
  {
    assert (mixed + [e])[..|mixed|] == mixed;
  }

  lemma AppendIds(mixed: seq<Entry>, e: Entry)
    requires DistinctIds(mixed) && e.id !in Ids(mixed)
    ensures DistinctIds(mixed + [e]) && Ids(mixed + [e]) == Ids(mixed) + {e.id}
  {
    var r := mixed + [e];
    IdsInSplit(r, 0, |mixed|, |r|);
    IdsInOne(r, |mixed|);
    IdsInSameRange(mixed, r, 0, |mixed|);
    forall a, b | 0 <= a < b < |r| ensures r[a].id != r[b].id {
      if b == |mixed| {
        assert mixed[a].id in Ids(mixed);
      }
    }
  }

  /** The buffer after one entry's chunk was added onto it, sample by
      sample. */
  function AddChunk(prev: seq<I16>, chunk: seq<I16>, e: Entry): (r: seq<I16>)
    ensures |r| == |prev|
    ensures forall i :: 0 <= i < |prev| && |chunk| <= i ==> r[i] == prev[i]
  {
    seq(|prev|, i requires 0 <= i < |prev| =>
      if i < |chunk| then SatAdd(prev[i], Contribution(e, chunk[i])) else prev[i])
  }

  /** `cur` is what the buffer `base` became once the entries of `mixed` were
      added onto it. */
  ghost predicate MixedBuffer(cur: seq<I16>, base: seq<I16>, mixed: seq<Entry>, n: nat)
  {
    && AllValid(mixed) && |cur| == |base| == n
    && forall i :: 0 <= i < n ==> cur[i] == MixedValue(base[i], mixed, n, i)
  }

  lemma MixedBufferGrows(prev: seq<I16>, base: seq<I16>, mixed: seq<Entry>, e: Entry, n: nat)
    requires MixedBuffer(prev, base, mixed, n) && Sources.Valid(e.data)
    ensures MixedBuffer(AddChunk(prev, EntryChunk(e, n), e), base, mixed + [e], n)
  {
    forall i | 0 <= i < n
      ensures AddChunk(prev, EntryChunk(e, n), e)[i] == MixedValue(base[i], mixed + [e], n, i)
    {
      MixedValueAppend(base[i], mixed, e, n, i);
    }
  }

  /** The entries mixed so far: distinct entries of the playing partition as
      it was when the call began, whose ids make up `done`. */
  ghost predicate MixLog(o: seq<Entry>, p0: nat, mixed: seq<Entry>, done: set<nat>)
  {
    && AllValid(mixed) && DistinctIds(mixed) && done == Ids(mixed) && p0 <= |o|
    && forall m :: 0 <= m < |mixed| ==> mixed[m] in o[..p0]
  }

  lemma MixLogGrows(o: seq<Entry>, p0: nat, mixed: seq<Entry>, done: set<nat>, j0: nat)
    requires MixLog(o, p0, mixed, done) && j0 < p0 && o[j0].id !in done && Sources.Valid(o[j0].data)
    ensures MixLog(o, p0, mixed + [o[j0]], done + {o[j0].id})
  {
    AppendIds(mixed, o[j0]);
    assert o[..p0][j0] == o[j0];
  }

  // The state of the pass. `o` and `p0` are the entries and the boundary when
  // the call began, `done` the ids of the entries mixed so far.

  /** What has become of the entry that was at index `j`, while the cursor is
      at `s`: a mixed entry was advanced by one buffer; if it finished it was
      removed (when marked) or sits in the idle partition, otherwise it is
      behind the cursor. An entry not yet mixed is unchanged, and ahead of the
      cursor in the playing partition if it played. */
  ghost predicate Fate(o: seq<Entry>, p0: nat, n: nat, done: set<nat>, sounds: seq<Entry>, playing: nat, s: nat, j: nat)
    requires j < |o| && Sources.Valid(o[j].data)
  {
    var k := LastIndexOf(sounds, o[j].id, 0, |sounds|);
    if o[j].id in done then
      && j < p0
      && if Finished(o[j], n) && o[j].drop then k < 0
         else 0 <= k && sounds[k] == Advance(o[j], n) && (if Finished(o[j], n) then playing <= k else k < s)
    else
      0 <= k && sounds[k] == o[j] && (if j < p0 then s <= k < playing else playing <= k)
  }

  ghost predicate Shape(o: seq<Entry>, p0: nat, sounds: seq<Entry>, playing: nat, s: nat)
  {
    && Lineup(o, p0).Valid()
    && Lineup(sounds, playing).Valid()
    && s <= playing && |sounds| <= |o| && |o| - p0 <= |sounds| - playing
    && forall k :: 0 <= k < |sounds| ==> sounds[k].id in Ids(o)
  }

  ghost predicate PassInv(o: seq<Entry>, p0: nat, n: nat, done: set<nat>, sounds: seq<Entry>, playing: nat, s: nat)
  {
    && Shape(o, p0, sounds, playing, s)
    && forall j :: 0 <= j < |o| ==> Fate(o, p0, n, done, sounds, playing, s, j)
  }

  /** The fate of the entry that was at index `j` once the pass is over. */
  ghost predicate FinalFate(o: seq<Entry>, p0: nat, n: nat, done: set<nat>, sounds: seq<Entry>, playing: nat, j: nat)
    requires j < |o| && Sources.Valid(o[j].data)
  {
    var k := LastIndexOf(sounds, o[j].id, 0, |sounds|);
    if o[j].id in done then
      && j < p0
      && if Finished(o[j], n) && o[j].drop then k < 0
         else 0 <= k && sounds[k] == Advance(o[j], n) && (k < playing <==> !Finished(o[j], n))
    else
      0 <= k && sounds[k] == o[j] && (k < playing <==> j < p0)
  }

  /** The whole effect of a pass on the entries: the lineup stays valid, no
      entry appears, every entry either was mixed (then it was playing, and
      it advanced by one buffer, left the playing partition if it finished,
      and is gone exactly when it finished while marked for removal) or is
      untouched in its partition; and unless the pass removed an entry and no
      entry was idle when the pass began, every playing entry was mixed. */
  ghost predicate Outcome(o: seq<Entry>, p0: nat, n: nat, done: set<nat>, sounds: seq<Entry>, playing: nat)
    requires Lineup(o, p0).Valid()
  {
    && Lineup(sounds, playing).Valid()
    && (forall k :: 0 <= k < |sounds| ==> sounds[k].id in Ids(o))
    && (forall j :: 0 <= j < |o| ==> FinalFate(o, p0, n, done, sounds, playing, j))
    && ((p0 < |o| || |sounds| == |o|) ==> forall j :: 0 <= j < p0 ==> o[j].id in done)
  }

  /** Before the first entry is mixed, every entry is where it was. */
  lemma PassStarts(o: seq<Entry>, p0: nat, n: nat)
    requires Lineup(o, p0).Valid()
    ensures PassInv(o, p0, n, {}, o, p0, 0)
  {
    IdsInSameRange(o, o, 0, |o|);
    forall j | 0 <= j < |o| ensures Fate(o, p0, n, {}, o, p0, 0, j) {
      LastIndexOfFinds(o, o[j].id, 0, |o|);
    }
  }

  /** The entry under the cursor has not been mixed yet: it is the entry that
      was at some playing index `j0` when the call began. */
  lemma CurrentEntry(o: seq<Entry>, p0: nat, n: nat, done: set<nat>, sounds: seq<Entry>, playing: nat, s: nat) returns (j0: nat)
    requires PassInv(o, p0, n, done, sounds, playing, s) && s < playing
    ensures j0 < p0 && o[j0] == sounds[s] && sounds[s].id !in done
  {
    var x := sounds[s].id;
    assert x in IdsIn(o, 0, |o|);
    LastIndexOfFinds(o, x, 0, |o|);
    j0 := LastIndexOf(o, x, 0, |o|);
    assert Fate(o, p0, n, done, sounds, playing, s, j0);
    LastIndexOfFinds(sounds, x, 0, |sounds|);
  }

  // One step of the pass on the entry under the cursor. `e` is that entry and
  // `t` the entries once its source has been refilled in place.

  /** An entry that filled the buffer stays where it is and the cursor moves
      past it. */
  lemma StepFilled(o: seq<Entry>, p0: nat, n: nat, done: set<nat>, sounds: seq<Entry>, playing: nat, s: nat, j0: nat)
    requires PassInv(o, p0, n, done, sounds, playing, s) && s < playing
    requires j0 < p0 && o[j0] == sounds[s] && sounds[s].id !in done
    requires !Finished(sounds[s], n)
    ensures PassInv(o, p0, n, done + {sounds[s].id}, sounds[s := Advance(sounds[s], n)], playing, s + 1)
  {
    var e := sounds[s];
    var t := sounds[s := Advance(e, n)];
    IdsInSameId(sounds, s, Advance(e, n), 0, |sounds|);
    var done', s' := done + {e.id}, s + 1;
    forall j | 0 <= j < |o| ensures Fate(o, p0, n, done', t, playing, s', j) {
      FilledFate(o, p0, n, done, sounds, playing, s, j0, j);
    }
  }

  lemma FilledFate(o: seq<Entry>, p0: nat, n: nat, done: set<nat>, sounds: seq<Entry>, playing: nat, s: nat, j0: nat, j: nat)
    requires PassInv(o, p0, n, done, sounds, playing, s) && s < playing
    requires j0 < p0 && o[j0] == sounds[s] && sounds[s].id !in done
    requires !Finished(sounds[s], n) && j < |o|
    ensures Fate(o, p0, n, done + {sounds[s].id}, sounds[s := Advance(sounds[s], n)], playing, s + 1, j)
  {
    var e := sounds[s];
    var t := sounds[s := Advance(e, n)];
    IdsInSameId(sounds, s, Advance(e, n), 0, |sounds|);
    var x := o[j].id;
    var k := LastIndexOf(sounds, x, 0, |sounds|);
    assert Fate(o, p0, n, done, sounds, playing, s, j);
    LastIndexOfFinds(sounds, x, 0, |sounds|);
    LastIndexOfFinds(t, x, 0, |t|);
    if x == e.id {
      assert j == j0;
    } else if k >= 0 {
      assert t[k] == sounds[k];
    }
  }

  /** An entry that finished and stays swaps with the last playing entry, the
      boundary shrinks past it, and the cursor stays to mix the entry swapped
      in. */
  lemma StepFinished(o: seq<Entry>, p0: nat, n: nat, done: set<nat>, sounds: seq<Entry>, playing: nat, s: nat, j0: nat)
    requires PassInv(o, p0, n, done, sounds, playing, s) && s < playing
    requires j0 < p0 && o[j0] == sounds[s] && sounds[s].id !in done
    requires Finished(sounds[s], n) && !sounds[s].drop
    ensures PassInv(o, p0, n, done + {sounds[s].id}, Swap(sounds[s := Advance(sounds[s], n)], s, playing - 1), playing - 1, s)
  {
    var e := sounds[s];
    var t := sounds[s := Advance(e, n)];
    var r := Swap(t, s, playing - 1);
    IdsInSameId(sounds, s, Advance(e, n), 0, |sounds|);
    SwapKeeps(t, s, playing - 1);
    var done', playing' := done + {e.id}, playing - 1;
    forall j | 0 <= j < |o| ensures Fate(o, p0, n, done', r, playing', s, j) {
      FinishedFate(o, p0, n, done, sounds, playing, s, j0, j);
    }
  }

  lemma FinishedFate(o: seq<Entry>, p0: nat, n: nat, done: set<nat>, sounds: seq<Entry>, playing: nat, s: nat, j0: nat, j: nat)
    requires PassInv(o, p0, n, done, sounds, playing, s) && s < playing
    requires j0 < p0 && o[j0] == sounds[s] && sounds[s].id !in done
    requires Finished(sounds[s], n) && !sounds[s].drop && j < |o|
    ensures Fate(o, p0, n, done + {sounds[s].id}, Swap(sounds[s := Advance(sounds[s], n)], s, playing - 1), playing - 1, s, j)
  {
    var e := sounds[s];
    var t := sounds[s := Advance(e, n)];
    var r := Swap(t, s, playing - 1);
    IdsInSameId(sounds, s, Advance(e, n), 0, |sounds|);
    SwapKeeps(t, s, playing - 1);
    assert Fate(o, p0, n, done, sounds, playing, s, j);
    if o[j].id == e.id {
      assert j == j0;
      LastIndexOfFinds(r, e.id, 0, |r|);
      assert r[playing - 1] == Advance(e, n);
    } else {
      FinishedOther(o, p0, n, done, sounds, playing, s, j);
    }
  }

  lemma FinishedOther(o: seq<Entry>, p0: nat, n: nat, done: set<nat>, sounds: seq<Entry>, playing: nat, s: nat, j: nat)
    requires Lineup(o, p0).Valid() && Lineup(sounds, playing).Valid() && s < playing
    requires j < |o| && Fate(o, p0, n, done, sounds, playing, s, j) && o[j].id != sounds[s].id
    ensures Fate(o, p0, n, done + {sounds[s].id}, Swap(sounds[s := Advance(sounds[s], n)], s, playing - 1), playing - 1, s, j)
  {
    var e := sounds[s];
    var t := sounds[s := Advance(e, n)];
    var r := Swap(t, s, playing - 1);
    IdsInSameId(sounds, s, Advance(e, n), 0, |sounds|);
    SwapKeeps(t, s, playing - 1);
    var x := o[j].id;
    var k := LastIndexOf(sounds, x, 0, |sounds|);
    LastIndexOfFinds(sounds, x, 0, |sounds|);
    LastIndexOfFinds(r, x, 0, |r|);
    if k >= 0 {
      var k' := if k == playing - 1 then s else k;
      assert r[k'] == sounds[k];
    }
  }

  /** An entry that finished while marked for removal is swap-removed and the
      boundary shrinks; when the last playing slot is left with nothing idle
      behind it, or nothing plays any more, the pass ends without a swap. */
  lemma StepDroppedLast(o: seq<Entry>, p0: nat, n: nat, done: set<nat>, sounds: seq<Entry>, playing: nat, s: nat, j0: nat)
    requires PassInv(o, p0, n, done, sounds, playing, s) && s < playing
    requires j0 < p0 && o[j0] == sounds[s] && sounds[s].id !in done
    requires Finished(sounds[s], n) && sounds[s].drop
    requires var u := SwapRemove(sounds[s := Advance(sounds[s], n)], s); !(playing - 1 > 0 && playing - 1 < |u|)
    ensures PassInv(o, p0, n, done + {sounds[s].id}, SwapRemove(sounds[s := Advance(sounds[s], n)], s), playing - 1, s)
  {
    var e := sounds[s];
    var t := sounds[s := Advance(e, n)];
    var u := SwapRemove(t, s);
    IdsInSameId(sounds, s, Advance(e, n), 0, |sounds|);
    SwapRemoveIds(t, s);
    var done', playing' := done + {e.id}, playing - 1;
    forall j | 0 <= j < |o| ensures Fate(o, p0, n, done', u, playing', s, j) {
      DroppedLastFate(o, p0, n, done, sounds, playing, s, j0, j);
    }
  }

  lemma DroppedLastFate(o: seq<Entry>, p0: nat, n: nat, done: set<nat>, sounds: seq<Entry>, playing: nat, s: nat, j0: nat, j: nat)
    requires PassInv(o, p0, n, done, sounds, playing, s) && s < playing
    requires j0 < p0 && o[j0] == sounds[s] && sounds[s].id !in done
    requires Finished(sounds[s], n) && sounds[s].drop
    requires var u := SwapRemove(sounds[s := Advance(sounds[s], n)], s); !(playing - 1 > 0 && playing - 1 < |u|)
    requires j < |o|
    ensures Fate(o, p0, n, done + {sounds[s].id}, SwapRemove(sounds[s := Advance(sounds[s], n)], s), playing - 1, s, j)
  {
    var e := sounds[s];
    var t := sounds[s := Advance(e, n)];
    var u := SwapRemove(t, s);
    IdsInSameId(sounds, s, Advance(e, n), 0, |sounds|);
    SwapRemoveIds(t, s);
    assert Fate(o, p0, n, done, sounds, playing, s, j);
    if o[j].id == e.id {
      assert j == j0;
      LastIndexOfFinds(u, e.id, 0, |u|);
    } else {
      DroppedLastOther(o, p0, n, done, sounds, playing, s, j);
    }
  }

  lemma DroppedLastOther(o: seq<Entry>, p0: nat, n: nat, done: set<nat>, sounds: seq<Entry>, playing: nat, s: nat, j: nat)
    requires Lineup(o, p0).Valid() && Lineup(sounds, playing).Valid()
    requires s < playing && |o| - p0 <= |sounds| - playing
    requires j < |o| && Fate(o, p0, n, done, sounds, playing, s, j) && o[j].id != sounds[s].id
    requires Finished(sounds[s], n) && sounds[s].drop
    requires var u := SwapRemove(sounds[s := Advance(sounds[s], n)], s); !(playing - 1 > 0 && playing - 1 < |u|)
    ensures Fate(o, p0, n, done + {sounds[s].id}, SwapRemove(sounds[s := Advance(sounds[s], n)], s), playing - 1, s, j)
  {
    var e := sounds[s];
    var t := sounds[s := Advance(e, n)];
    var u := SwapRemove(t, s);
    IdsInSameId(sounds, s, Advance(e, n), 0, |sounds|);
    SwapRemoveIds(t, s);
    var x := o[j].id;
    var k := LastIndexOf(sounds, x, 0, |sounds|);
    LastIndexOfFinds(sounds, x, 0, |sounds|);
    LastIndexOfFinds(u, x, 0, |u|);
    if k >= 0 {
      var k' := if k == |t| - 1 then s else k;
      assert u[k'] == sounds[k];
    }
  }

  /** As above, when idle entries remain behind the shrunk boundary: the slot
      the removed entry leaves is swapped with the last playing one. */
  lemma StepDroppedSwap(o: seq<Entry>, p0: nat, n: nat, done: set<nat>, sounds: seq<Entry>, playing: nat, s: nat, j0: nat)
    requires PassInv(o, p0, n, done, sounds, playing, s) && s < playing
    requires j0 < p0 && o[j0] == sounds[s] && sounds[s].id !in done
    requires Finished(sounds[s], n) && sounds[s].drop
    requires var u := SwapRemove(sounds[s := Advance(sounds[s], n)], s); playing - 1 > 0 && playing - 1 < |u|
    ensures PassInv(o, p0, n, done + {sounds[s].id}, Swap(SwapRemove(sounds[s := Advance(sounds[s], n)], s), s, playing - 1), playing - 1, s)
  {
    var e := sounds[s];
    var t := sounds[s := Advance(e, n)];
    var u := SwapRemove(t, s);
    var r := Swap(u, s, playing - 1);
    IdsInSameId(sounds, s, Advance(e, n), 0, |sounds|);
    SwapRemoveIds(t, s);
    SwapKeeps(u, s, playing - 1);
    var done', playing' := done + {e.id}, playing - 1;
    forall j | 0 <= j < |o| ensures Fate(o, p0, n, done', r, playing', s, j) {
      DroppedSwapFate(o, p0, n, done, sounds, playing, s, j0, j);
    }
  }

  lemma DroppedSwapFate(o: seq<Entry>, p0: nat, n: nat, done: set<nat>, sounds: seq<Entry>, playing: nat, s: nat, j0: nat, j: nat)
    requires PassInv(o, p0, n, done, sounds, playing, s) && s < playing
    requires j0 < p0 && o[j0] == sounds[s] && sounds[s].id !in done
    requires Finished(sounds[s], n) && sounds[s].drop
    requires var u := SwapRemove(sounds[s := Advance(sounds[s], n)], s); playing - 1 > 0 && playing - 1 < |u|
    requires j < |o|
    ensures Fate(o, p0, n, done + {sounds[s].id}, Swap(SwapRemove(sounds[s := Advance(sounds[s], n)], s), s, playing - 1), playing - 1, s, j)
  {
    var e := sounds[s];
    var t := sounds[s := Advance(e, n)];
    var u := SwapRemove(t, s);
    var r := Swap(u, s, playing - 1);
    IdsInSameId(sounds, s, Advance(e, n), 0, |sounds|);
    SwapRemoveIds(t, s);
    SwapKeeps(u, s, playing - 1);
    assert Fate(o, p0, n, done, sounds, playing, s, j);
    if o[j].id == e.id {
      assert j == j0;
      LastIndexOfFinds(r, e.id, 0, |r|);
    } else {
      DroppedSwapOther(o, p0, n, done, sounds, playing, s, j);
    }
  }

  lemma DroppedSwapOther(o: seq<Entry>, p0: nat, n: nat, done: set<nat>, sounds: seq<Entry>, playing: nat, s: nat, j: nat)
    requires Lineup(o, p0).Valid() && Lineup(sounds, playing).Valid()
    requires s < playing && |o| - p0 <= |sounds| - playing
    requires j < |o| && Fate(o, p0, n, done, sounds, playing, s, j) && o[j].id != sounds[s].id
    requires Finished(sounds[s], n) && sounds[s].drop
    requires var u := SwapRemove(sounds[s := Advance(sounds[s], n)], s); playing - 1 > 0 && playing - 1 < |u|
    ensures Fate(o, p0, n, done + {sounds[s].id}, Swap(SwapRemove(sounds[s := Advance(sounds[s], n)], s), s, playing - 1), playing - 1, s, j)
  {
    var e := sounds[s];
    var t := sounds[s := Advance(e, n)];
    var u := SwapRemove(t, s);
    var r := Swap(u, s, playing - 1);
    IdsInSameId(sounds, s, Advance(e, n), 0, |sounds|);
    SwapRemoveIds(t, s);
    SwapKeeps(u, s, playing - 1);
    var x := o[j].id;
    var k := LastIndexOf(sounds, x, 0, |sounds|);
    LastIndexOfFinds(sounds, x, 0, |sounds|);
    LastIndexOfFinds(r, x, 0, |r|);
    if k >= 0 {
      var k1 := if k == |t| - 1 then s else k;
      assert u[k1] == sounds[k];
      var k' := if k1 == s then playing - 1 else if k1 == playing - 1 then s else k1;
      assert r[k'] == sounds[k];
    }
  }

  /** The entries, the boundary and whether the pass stops, after the entry
      at `s` of `t` finished: it is removed when marked, the boundary shrinks,
      and while entries remain both in front of and behind the new boundary,
      the slot at `s` is swapped with the last playing one; otherwise the pass
      stops. */
  function Retire(t: seq<Entry>, s: nat, playing: nat, drop: bool): (r: (seq<Entry>, nat, bool))
    requires s < playing <= |t|
    ensures r.1 == playing - 1 && r.1 <= |r.0| == |t| - (if drop then 1 else 0)
    ensures r.2 <==> r.1 == 0 || r.1 == |r.0|
    ensures AllValid(t) ==> AllValid(r.0)
  {
    var u := if drop then SwapRemove(t, s) else t;
    var p := playing - 1;
    if p > 0 && p < |u| then (Swap(u, s, p), p, false) else (u, p, true)
  }

  /** Retiring loses exactly the retired entry when it was marked for
      removal, and no entry otherwise. */
  lemma RetireKeepsEntries(t: seq<Entry>, s: nat, playing: nat, drop: bool)
    requires s < playing <= |t|
    ensures multiset(Retire(t, s, playing, drop).0) == multiset(t) - (if drop then multiset{t[s]} else multiset{})
  {
    var u := if drop then SwapRemove(t, s) else t;
    var p := playing - 1;
    if drop {
      SwapRemoveEntries(t, s);
    }
    if p > 0 && p < |u| {
      SwapKeepsEntries(u, s, p);
    }
  }

  /** `Vec::swap_remove` takes exactly the removed entry out of the multiset
      of entries. */
  lemma SwapRemoveEntries(s: seq<Entry>, i: nat)
    requires i < |s|
    ensures multiset(SwapRemove(s, i)) == multiset(s) - multiset{s[i]}
  {
    var last := |s| - 1;
    var init := s[..last];
    assert s == init + [s[last]];
    if i < last {
      assert SwapRemove(s, i) == init[i := s[last]];
    } else {
      assert SwapRemove(s, i) == init;
    }
  }

  /** Retiring a finished entry keeps the invariant, and a pass that stops
      there has either brought the cursor to the boundary, or has removed an
      entry and no entry was idle when the pass began. */
  lemma StepRetired(o: seq<Entry>, p0: nat, n: nat, done: set<nat>, sounds: seq<Entry>, playing: nat, s: nat, j0: nat)
    requires PassInv(o, p0, n, done, sounds, playing, s) && s < playing
    requires j0 < p0 && o[j0] == sounds[s] && sounds[s].id !in done
    requires Finished(sounds[s], n)
    ensures var r := Retire(sounds[s := Advance(sounds[s], n)], s, playing, sounds[s].drop);
      && PassInv(o, p0, n, done + {sounds[s].id}, r.0, r.1, s)
      && (r.2 ==> s == r.1 || (|r.0| < |o| && p0 == |o|))
  {
    var e := sounds[s];
    var t := sounds[s := Advance(e, n)];
    var u := if e.drop then SwapRemove(t, s) else t;
    var p := playing - 1;
    if e.drop {
      if p > 0 && p < |u| {
        StepDroppedSwap(o, p0, n, done, sounds, playing, s, j0);
      } else {
        StepDroppedLast(o, p0, n, done, sounds, playing, s, j0);
      }
    } else {
      StepFinished(o, p0, n, done, sounds, playing, s, j0);
      if !(p > 0 && p < |u|) {
        assert Swap(t, s, p) == t;
      }
    }
  }

  /** When the cursor reaches the boundary, or the pass stops after it has
      removed an entry and no entry was idle when it began, the invariant
      yields the outcome. */
  lemma PassEnds(o: seq<Entry>, p0: nat, n: nat, done: set<nat>, sounds: seq<Entry>, playing: nat, s: nat)
    requires PassInv(o, p0, n, done, sounds, playing, s)
    requires s == playing || (|sounds| < |o| && p0 == |o|)
    ensures Outcome(o, p0, n, done, sounds, playing)
  {
    forall j | 0 <= j < |o| ensures FinalFate(o, p0, n, done, sounds, playing, j) {
      assert Fate(o, p0, n, done, sounds, playing, s, j);
    }
    if s == playing {
      forall j | 0 <= j < p0 ensures o[j].id in done {
        assert Fate(o, p0, n, done, sounds, playing, s, j);
      }
    }
  }

  /** The entries a pass mixes, in the order its cursor reaches them, when it
      resumes at cursor `s` over `sounds` with `playing` entries playing: the
      entry under the cursor is mixed; if it wrote a full buffer the cursor
      moves on, otherwise it is retired and the cursor stays, unless the pass
      stops there. */
  ghost function PassOrder(sounds: seq<Entry>, playing: nat, n: nat, s: nat): (r: seq<Entry>)
    requires playing <= |sounds| && AllValid(sounds)
    ensures s <= playing ==> |r| <= playing - s
    ensures s < playing ==> 0 < |r| && r[0] == sounds[s]
    ensures playing <= s ==> r == []
    decreases playing - s
  {
    if s >= playing then []
    else
      var e := sounds[s];
      var t := sounds[s := Advance(e, n)];
      assert AllValid(t);
      if Finished(e, n) then
        var r := Retire(t, s, playing, e.drop);
        [e] + (if r.2 then [] else PassOrder(r.0, r.1, n, s))
      else
        [e] + PassOrder(t, playing, n, s + 1)
  }

  /** The entries and the boundary a pass leaves when it resumes at cursor `s`
      over `sounds` with `playing` entries playing: it follows the same steps
      as `PassOrder` and ends where the cursor meets the boundary or where a
      retirement stops the pass. */
  ghost function PassLineup(sounds: seq<Entry>, playing: nat, n: nat, s: nat): (r: Lineup)
    requires playing <= |sounds| && AllValid(sounds)
    ensures r.playing <= |r.sounds| <= |sounds| && AllValid(r.sounds)
    ensures r.playing <= playing && |sounds| - playing <= |r.sounds| - r.playing
    decreases playing - s
  {
    if s >= playing then Lineup(sounds, playing)
    else
      var e := sounds[s];
      var t := sounds[s := Advance(e, n)];
      assert AllValid(t);
      if Finished(e, n) then
        var r := Retire(t, s, playing, e.drop);
        if r.2 then Lineup(r.0, r.1) else PassLineup(r.0, r.1, n, s)
      else
        PassLineup(t, playing, n, s + 1)
  }

  lemma PrependIds(e: Entry, rest: seq<Entry>)
    ensures Ids([e] + rest) == {e.id} + Ids(rest)
  {
    var r := [e] + rest;
    forall x | x in Ids(rest) ensures x in Ids(r) {
      var k :| 0 <= k < |rest| && rest[k].id == x;
      assert r[k + 1].id == x;
    }
    assert r[0].id == e.id;
  }

  /** The lineup `PassLineup` gives and the ids `PassOrder` mixes are what the
      pass invariant promises at its end: continuing a pass from any state
      that keeps the invariant reaches `Outcome`. */
  lemma {:induction false} PassRunOutcome(o: seq<Entry>, p0: nat, n: nat, done: set<nat>, sounds: seq<Entry>, playing: nat, s: nat)
    requires PassInv(o, p0, n, done, sounds, playing, s)
    ensures AllValid(sounds)
    ensures var l := PassLineup(sounds, playing, n, s);
      Outcome(o, p0, n, done + Ids(PassOrder(sounds, playing, n, s)), l.sounds, l.playing)
    decreases playing - s, 1
  {
    if s >= playing {
      PassEnds(o, p0, n, done, sounds, playing, s);
      assert done + Ids([]) == done;
    } else if Finished(sounds[s], n) {
      RunRetiredOutcome(o, p0, n, done, sounds, playing, s);
    } else {
      RunFilledOutcome(o, p0, n, done, sounds, playing, s);
    }
  }

  lemma {:induction false} RunFilledOutcome(o: seq<Entry>, p0: nat, n: nat, done: set<nat>, sounds: seq<Entry>, playing: nat, s: nat)
    requires PassInv(o, p0, n, done, sounds, playing, s) && s < playing && !Finished(sounds[s], n)
    ensures AllValid(sounds)
    ensures var l := PassLineup(sounds, playing, n, s);
      Outcome(o, p0, n, done + Ids(PassOrder(sounds, playing, n, s)), l.sounds, l.playing)
    decreases playing - s, 0
  {
    var e := sounds[s];
    var t := sounds[s := Advance(e, n)];
    var done' := done + {e.id};
    assert PassInv(o, p0, n, done', t, playing, s + 1) by {
      var j0 := CurrentEntry(o, p0, n, done, sounds, playing, s);
      StepFilled(o, p0, n, done, sounds, playing, s, j0);
    }
    assert AllValid(sounds) && AllValid(t)
      && done + Ids(PassOrder(sounds, playing, n, s)) == done' + Ids(PassOrder(t, playing, n, s + 1))
      && PassLineup(sounds, playing, n, s) == PassLineup(t, playing, n, s + 1) by {
      PassOrderFilled(sounds, playing, n, s);
      PrependIds(e, PassOrder(t, playing, n, s + 1));
    }
    PassRunOutcome(o, p0, n, done', t, playing, s + 1);
  }

  lemma {:induction false} RunRetiredOutcome(o: seq<Entry>, p0: nat, n: nat, done: set<nat>, sounds: seq<Entry>, playing: nat, s: nat)
    requires PassInv(o, p0, n, done, sounds, playing, s) && s < playing && Finished(sounds[s], n)
    ensures AllValid(sounds)
    ensures var l := PassLineup(sounds, playing, n, s);
      Outcome(o, p0, n, done + Ids(PassOrder(sounds, playing, n, s)), l.sounds, l.playing)
    decreases playing - s, 0
  {
    var e := sounds[s];
    var t := sounds[s := Advance(e, n)];
    var done' := done + {e.id};
    var r := Retire(t, s, playing, e.drop);
    assert PassInv(o, p0, n, done', r.0, r.1, s) && (r.2 ==> s == r.1 || (|r.0| < |o| && p0 == |o|)) by {
      var j0 := CurrentEntry(o, p0, n, done, sounds, playing, s);
      StepRetired(o, p0, n, done, sounds, playing, s, j0);
    }
    assert AllValid(sounds) && AllValid(r.0) && r.1 <= |r.0|
      && done + Ids(PassOrder(sounds, playing, n, s)) == done' + (if r.2 then {} else Ids(PassOrder(r.0, r.1, n, s)))
      && PassLineup(sounds, playing, n, s) == (if r.2 then Lineup(r.0, r.1) else PassLineup(r.0, r.1, n, s)) by {
      PassOrderRetired(sounds, playing, n, s);
      var rest := if r.2 then [] else PassOrder(r.0, r.1, n, s);
      PrependIds(e, rest);
      if r.2 {
        assert Ids(rest) == {};
      }
    }
    if r.2 {
      assert done + Ids(PassOrder(sounds, playing, n, s)) == done';
      assert PassLineup(sounds, playing, n, s) == Lineup(r.0, r.1);
      PassEnds(o, p0, n, done', r.0, r.1, s);
    } else {
      PassRunOutcome(o, p0, n, done', r.0, r.1, s);
    }
  }

  /** A whole pass over a valid lineup: the lineup `PassLineup` leaves and the
      entries `PassOrder` mixes meet `Outcome`. */
  lemma PassLineupOutcome(o: seq<Entry>, p0: nat, n: nat)
    requires Lineup(o, p0).Valid()
    ensures AllValid(o)
    ensures var l := PassLineup(o, p0, n, 0);
      Outcome(o, p0, n, Ids(PassOrder(o, p0, n, 0)), l.sounds, l.playing)
  {
    PassStarts(o, p0, n);
    PassRunOutcome(o, p0, n, {}, o, p0, 0);
    assert {} + Ids(PassOrder(o, p0, n, 0)) == Ids(PassOrder(o, p0, n, 0));
  }

  /** When no entry ahead of the cursor finishes, the pass mixes the playing
      entries exactly in the order they sit in the lineup. */
  lemma {:induction false} PassOrderInLineup(sounds: seq<Entry>, playing: nat, n: nat, s: nat)
    requires playing <= |sounds| && AllValid(sounds) && s <= playing
    requires forall j :: s <= j < playing ==> !Finished(sounds[j], n)
    ensures PassOrder(sounds, playing, n, s) == sounds[s..playing]
    decreases playing - s
  {
    if s < playing {
      var t := sounds[s := Advance(sounds[s], n)];
      assert AllValid(t);
      assert forall j :: s + 1 <= j < playing ==> t[j] == sounds[j];
      PassOrderInLineup(t, playing, n, s + 1);
      assert t[s + 1..playing] == sounds[s + 1..playing];
    }
  }

  /** One step of the pass for an entry that wrote a full buffer. */
  lemma PassOrderFilled(sounds: seq<Entry>, playing: nat, n: nat, s: nat)
    requires playing <= |sounds| && AllValid(sounds) && s < playing && !Finished(sounds[s], n)
    ensures AllValid(sounds[s := Advance(sounds[s], n)])
    ensures PassOrder(sounds, playing, n, s)
         == [sounds[s]] + PassOrder(sounds[s := Advance(sounds[s], n)], playing, n, s + 1)
    ensures PassLineup(sounds, playing, n, s) == PassLineup(sounds[s := Advance(sounds[s], n)], playing, n, s + 1)
  {
    assert AllValid(sounds[s := Advance(sounds[s], n)]);
  }

  /** One step of the pass for an entry that finished and is retired. */
  lemma PassOrderRetired(sounds: seq<Entry>, playing: nat, n: nat, s: nat)
    requires playing <= |sounds| && AllValid(sounds) && s < playing && Finished(sounds[s], n)
    ensures var r := Retire(sounds[s := Advance(sounds[s], n)], s, playing, sounds[s].drop);
      && r.1 <= |r.0| && AllValid(r.0)
      && PassOrder(sounds, playing, n, s) == [sounds[s]] + (if r.2 then [] else PassOrder(r.0, r.1, n, s))
      && PassLineup(sounds, playing, n, s) == (if r.2 then Lineup(r.0, r.1) else PassLineup(r.0, r.1, n, s))
  {
    var t := sounds[s := Advance(sounds[s], n)];
    assert AllValid(t);
  }

  /** The entries mixed so far followed by those the pass will still mix make
      up the order of the whole pass, and the rest of the pass leaves the
      lineup the whole pass leaves. */
  ghost predicate OrderInv(o: seq<Entry>, p0: nat, n: nat, mixed: seq<Entry>, sounds: seq<Entry>, playing: nat, s: nat)
  {
    && p0 <= |o| && AllValid(o) && playing <= |sounds| && AllValid(sounds)
    && mixed + PassOrder(sounds, playing, n, s) == PassOrder(o, p0, n, 0)
    && PassLineup(sounds, playing, n, s) == PassLineup(o, p0, n, 0)
  }

  lemma OrderStepFilled(o: seq<Entry>, p0: nat, n: nat, mixed: seq<Entry>, sounds: seq<Entry>, playing: nat, s: nat)
    requires OrderInv(o, p0, n, mixed, sounds, playing, s) && s < playing && !Finished(sounds[s], n)
    ensures OrderInv(o, p0, n, mixed + [sounds[s]], sounds[s := Advance(sounds[s], n)], playing, s + 1)
  {
    PassOrderFilled(sounds, playing, n, s);
  }

  lemma OrderStepRetired(o: seq<Entry>, p0: nat, n: nat, mixed: seq<Entry>, sounds: seq<Entry>, playing: nat, s: nat)
    requires OrderInv(o, p0, n, mixed, sounds, playing, s) && s < playing && Finished(sounds[s], n)
    ensures var r := Retire(sounds[s := Advance(sounds[s], n)], s, playing, sounds[s].drop);
      if r.2 then mixed + [sounds[s]] == PassOrder(o, p0, n, 0) && Lineup(r.0, r.1) == PassLineup(o, p0, n, 0)
      else OrderInv(o, p0, n, mixed + [sounds[s]], r.0, r.1, s)
  {
    var e := sounds[s];
    var r := Retire(sounds[s := Advance(e, n)], s, playing, e.drop);
    PassOrderRetired(sounds, playing, n, s);
    var rest := if r.2 then [] else PassOrder(r.0, r.1, n, s);
    assert mixed + [e] + rest == PassOrder(o, p0, n, 0);
    if r.2 {
      assert mixed + [e] + rest == mixed + [e];
    }
  }

  lemma OrderEnds(o: seq<Entry>, p0: nat, n: nat, mixed: seq<Entry>, sounds: seq<Entry>, playing: nat, s: nat)
    requires OrderInv(o, p0, n, mixed, sounds, playing, s) && playing <= s
    ensures mixed == PassOrder(o, p0, n, 0) && Lineup(sounds, playing) == PassLineup(o, p0, n, 0)
  {
  }

  lemma OrderStarts(o: seq<Entry>, p0: nat, n: nat)
    requires p0 <= |o| && AllValid(o)
    ensures OrderInv(o, p0, n, [], o, p0, 0)
  {
    assert [] + PassOrder(o, p0, n, 0) == PassOrder(o, p0, n, 0);
  }

  /** A whole pass in which no playing entry finishes mixes the playing
      partition in lineup order. */
  lemma PassOrderWhole(o: seq<Entry>, p0: nat, n: nat)
    requires p0 <= |o| && AllValid(o)
    ensures (forall j :: 0 <= j < p0 ==> !Finished(o[j], n)) ==> PassOrder(o, p0, n, 0) == o[..p0]
  {
    if forall j :: 0 <= j < p0 ==> !Finished(o[j], n) {
      PassOrderInLineup(o, p0, n, 0);
      assert o[0..p0] == o[..p0];
    }
  }
}

=== FILE: pcm.dfy ===
/** 16-bit signed PCM samples: the range, i16 saturating addition and the
    saturating float-to-i16 cast the mixer applies to each contribution. */
module Pcm {

  const MinSample: int := -0x8000
  const MaxSample: int := 0x7FFF

  /** A value of Rust's `i16`. */
  type I16 = x: int | MinSample <= x <= MaxSample

  /** Clamps an integer into the `i16` range. */
  function Clamp(x: int): I16
  {
    if x < MinSample then MinSample else if x > MaxSample then MaxSample else x
  }

  /** `i16::saturating_add`: the exact sum when it is representable, otherwise
      the bound on the side it overflowed; it never wraps around. */
  function SatAdd(a: I16, b: I16): (r: I16)
    ensures MinSample <= a + b <= MaxSample ==> r == a + b
    ensures a + b > MaxSample ==> r == MaxSample
    ensures a + b < MinSample ==> r == MinSample
  {
    Clamp(a + b)
  }

  /** Adding two samples of the same sign never flips the sign: the sum moves
      away from zero at least as far as either operand. */
  lemma SatAddKeepsSign(a: I16, b: I16)
    ensures 0 <= a && 0 <= b ==> a <= SatAdd(a, b) && b <= SatAdd(a, b)
    ensures a <= 0 && b <= 0 ==> SatAdd(a, b) <= a && SatAdd(a, b) <= b
  {
  }

  /** Rust's `x as i16` on a float: rounds toward zero and saturates at the
      bounds of the range (reals have no NaN, so that case does not arise). */
  function CastI16(r: real): (c: I16)
    ensures 0.0 <= r ==> 0 <= c && c as real <= r && (r < (c + 1) as real || c == MaxSample)
    ensures r < 0.0 ==> c <= 0 && r <= c as real && ((c - 1) as real < r || c == MinSample)
    ensures MinSample as real <= r <= MaxSample as real && r == r.Floor as real ==> c == r.Floor
  {
    if r >= 0.0 then Clamp(r.Floor) else Clamp(-((-r).Floor))
  }
}

=== FILE: playback.dfy ===
/** The refill step of the mixing loop: how one entry's source fills the
    scratch buffer for one output buffer, looping or not. */
module Playback {
  import opened Pcm
  import opened Sources

  /** The samples an entry contributes to an output buffer of `n` samples.
      A looping source with samples repeats its waveform from the current
      position with no gap at the loop boundary; a looping source without
      samples contributes nothing; any other source contributes what remains
      of it, up to `n`. */
  function Chunk(src: Source, looping: bool, n: nat): seq<I16>
    requires Valid(src)
  {
    var s := src.samples;
    if looping && |s| > 0 then seq(n, i requires 0 <= i < n => s[(src.pos + i) % |s|])
    else Remaining(src)[..Min(n, |Remaining(src)|)]
  }

  /** The source after the refill. A looping source with samples ends inside
      its last, possibly complete, period; a source that wrote short was reset;
      otherwise the position moved past the `n` samples written. */
  function After(src: Source, looping: bool, n: nat): Source
    requires Valid(src)
  {
    var s := src.samples;
    if looping && |s| > 0 && n > 0 then src.(pos := (src.pos + n - 1) % |s| + 1)
    else if |Remaining(src)| < n then Reset(src)
    else src.(pos := src.pos + n)
  }

  lemma DivMod(x: int, m: int)
    requires m > 0
    ensures x == (x / m) * m + x % m && 0 <= x % m < m
  {
  }

  lemma MulAtLeast(a: int, m: int)
    requires a >= 1 && m > 0
    ensures a * m >= m
    decreases a
  {
    if a > 1 {
      MulAtLeast(a - 1, m);
      assert a * m == (a - 1) * m + m;
    }
  }

  lemma MulSub(a: int, b: int, m: int)
    ensures a * m - b * m == (a - b) * m && a * m + b * m == (a + b) * m
  {
  }

  /** Quotient and remainder are unique. */
  lemma DivModUnique(x: int, q: int, r: int, m: int)
    requires m > 0 && 0 <= r < m && x == q * m + r
    ensures x % m == r
  {
    DivMod(x, m);
    MulSub(x / m, q, m);
    MulSub(q, x / m, m);
    if q < x / m {
      MulAtLeast(x / m - q, m);
    } else if q > x / m {
      MulAtLeast(q - x / m, m);
    }
  }

  lemma ModSum(a: int, j: int, m: int)
    requires m > 0
    ensures (a + j) % m == (a % m + j) % m
  {
    var t := a % m + j;
    DivMod(a, m);
    DivMod(t, m);
    MulSub(a / m, t / m, m);
    DivModUnique(a + j, a / m + t / m, t % m, m);
  }

  lemma ModShift(a: int, b: int, j: int, m: int)
    requires m > 0 && a % m == b % m
    ensures (a + j) % m == (b + j) % m
  {
    ModSum(a, j, m);
    ModSum(b, j, m);
  }

  /** The last position of a looping pass: the one place in `1..m` congruent
      to the end of the `n` samples written. */
  lemma EndOfPeriod(x: int, p: int, n: int, m: int)
    requires m > 0 && n > 0 && 0 <= p && 1 <= x <= m && x % m == (p + n) % m
    ensures x == (p + n - 1) % m + 1
  {
    ModShift(x, p + n, -1, m);
    DivModUnique(x - 1, 0, x - 1, m);
  }

  /** A sample read at position `at + j` of a looping source sits at offset
      `c + j` of its repetition from `p`, when `at` and `p + c` agree modulo
      the period. */
  lemma LoopingIndex(len: int, p: int, c: int, at: int, j: int)
    requires len > 0 && 0 <= j && 0 <= at && at + j < len
    requires at % len == (p + c) % len
    ensures (p + c + j) % len == at + j
  {
    ModShift(at, p + c, j, len);
    DivModUnique(at + j, 0, at + j, len);
  }

  /** One fill of a looping source with samples keeps the scratch buffer a
      gap-free repetition of the waveform starting at `p`. */
  lemma LoopingFillExtends(s: seq<I16>, p: nat, chunk: seq<I16>, next: Source, room: nat)
    requires Valid(next) && next.samples == s && |s| > 0
    requires next.pos % |s| == (p + |chunk|) % |s|
    requires forall i :: 0 <= i < |chunk| ==> chunk[i] == s[(p + i) % |s|]
    ensures var w := Fill(next, room);
      var c := chunk + w.samples;
      w.source.pos % |s| == (p + |c|) % |s| &&
      forall i :: 0 <= i < |c| ==> c[i] == s[(p + i) % |s|]
  {
    var w := Fill(next, room);
    var c := chunk + w.samples;
    var at := next.pos;
    assert forall j :: 0 <= j < |w.samples| ==> w.samples[j] == s[at + j];
    forall i | 0 <= i < |c|
      ensures c[i] == s[(p + i) % |s|]
    {
      if i >= |chunk| {
        LoopingIndex(|s|, p, |chunk|, at, i - |chunk|);
        assert c[i] == w.samples[i - |chunk|];
      }
    }
    ModShift(at, p + |chunk|, |w.samples|, |s|);
  }

  /** What holds each time the refill loop comes round: `chunk` is what has
      been written so far and `next` the source; `rewound` says the source was
      reset since the loop started. */
  ghost predicate RefillInv(src: Source, looping: bool, n: nat, chunk: seq<I16>, next: Source, rewound: bool)
  {
    var s, p := src.samples, src.pos;
    && Valid(src) && Valid(next) && next.samples == s && |chunk| <= n
    && Reset(next) == Reset(src)
    && (!rewound ==> chunk == [] && next == src)
    && (rewound ==> looping && next.pos == 0 && |chunk| < n)
    && (looping && |s| > 0 ==>
          next.pos % |s| == (p + |chunk|) % |s| &&
          forall i :: 0 <= i < |chunk| ==> chunk[i] == s[(p + i) % |s|])
    && (looping && |s| == 0 ==> chunk == [])
  }

  /** A short write of a looping entry that is not an empty pass right after a
      reset: the loop comes round again with the source reset, and has made
      progress. */
  lemma RefillContinues(src: Source, looping: bool, n: nat, chunk: seq<I16>, next: Source, rewound: bool)
    requires RefillInv(src, looping, n, chunk, next, rewound)
    requires var w := Fill(next, n - |chunk|);
      |chunk + w.samples| < n && looping && !(rewound && |w.samples| == 0)
    ensures var w := Fill(next, n - |chunk|);
      RefillInv(src, looping, n, chunk + w.samples, Reset(w.source), true) &&
      (|w.samples| > 0 || !rewound)
  {
    var s, p := src.samples, src.pos;
    var w := Fill(next, n - |chunk|);
    if |s| > 0 {
      LoopingFillExtends(s, p, chunk, next, n - |chunk|);
      // a short write leaves the source at its end, one full period on
      DivModUnique(w.source.pos, 1, 0, |s|);
      DivModUnique(0, 0, 0, |s|);
    }
  }

  /** When the loop stops, the scratch buffer holds the entry's chunk and the
      source is in the state `After` describes. */
  lemma RefillEnds(src: Source, looping: bool, n: nat, chunk: seq<I16>, next: Source, rewound: bool)
    requires RefillInv(src, looping, n, chunk, next, rewound)
    requires var w := Fill(next, n - |chunk|);
      !(|chunk + w.samples| < n && looping && !(rewound && |w.samples| == 0))
    ensures var w := Fill(next, n - |chunk|);
      var c := chunk + w.samples;
      c == Chunk(src, looping, n) &&
      (if |c| < n then Reset(w.source) else w.source) == After(src, looping, n)
  {
    if looping && |src.samples| > 0 {
      LoopingRefillEnds(src, n, chunk, next, rewound);
    }
  }

  lemma LoopingRefillEnds(src: Source, n: nat, chunk: seq<I16>, next: Source, rewound: bool)
    requires RefillInv(src, true, n, chunk, next, rewound) && |src.samples| > 0
    requires var w := Fill(next, n - |chunk|);
      !(|chunk + w.samples| < n && !(rewound && |w.samples| == 0))
    ensures var w := Fill(next, n - |chunk|);
      var c := chunk + w.samples;
      |c| == n && c == Chunk(src, true, n) && w.source == After(src, true, n)
  {
    var w := Fill(next, n - |chunk|);
    if rewound {
      assert |Remaining(next)| == |src.samples|;
    }
    assert |chunk + w.samples| == n;
    LoopingRefillChunk(src, n, chunk, next);
    LoopingRefillPos(src, n, chunk, next);
  }

  lemma LoopingRefillChunk(src: Source, n: nat, chunk: seq<I16>, next: Source)
    requires Valid(src) && Valid(next) && next.samples == src.samples && |src.samples| > 0
    requires next.pos % |src.samples| == (src.pos + |chunk|) % |src.samples|
    requires forall i :: 0 <= i < |chunk| ==> chunk[i] == src.samples[(src.pos + i) % |src.samples|]
    requires |chunk| <= n && |chunk + Fill(next, n - |chunk|).samples| == n
    ensures chunk + Fill(next, n - |chunk|).samples == Chunk(src, true, n)
  {
    LoopingFillExtends(src.samples, src.pos, chunk, next, n - |chunk|);
    LoopingChunk(src, n, chunk + Fill(next, n - |chunk|).samples);
  }

  lemma LoopingRefillPos(src: Source, n: nat, chunk: seq<I16>, next: Source)
    requires Valid(src) && Valid(next) && next.samples == src.samples && |src.samples| > 0
    requires Reset(next) == Reset(src)
    requires next.pos % |src.samples| == (src.pos + |chunk|) % |src.samples|
    requires |chunk| < n || (chunk == [] && next == src)
    requires |chunk| <= n && |chunk + Fill(next, n - |chunk|).samples| == n
    ensures Fill(next, n - |chunk|).source == After(src, true, n)
  {
    LoopingRefillAt(src, n, chunk, next);
  }

  /** Where a looping refill leaves the source is where `After` puts it: `n`
      samples on from the start position, modulo the period, and never at
      position 0 once it wrote. */
  lemma LoopingRefillAt(src: Source, n: nat, chunk: seq<I16>, next: Source)
    requires Valid(src) && Valid(next) && next.samples == src.samples && |src.samples| > 0
    requires next.pos % |src.samples| == (src.pos + |chunk|) % |src.samples|
    requires |chunk| < n || (chunk == [] && next == src)
    requires |chunk| <= n && |chunk + Fill(next, n - |chunk|).samples| == n
    ensures src.(pos := next.pos + |Fill(next, n - |chunk|).samples|) == After(src, true, n)
  {
    var s, p := src.samples, src.pos;
    var k := |Fill(next, n - |chunk|).samples|;
    ModShift(next.pos, p + |chunk|, k, |s|);
    if n > 0 {
      assert k > 0;
    }
    LoopingEnd(src, n, next.pos + k);
  }

  /** A scratch buffer of `n` samples that repeats the waveform from the
      source's position is the looping chunk. */
  lemma LoopingChunk(src: Source, n: nat, c: seq<I16>)
    requires Valid(src) && |src.samples| > 0 && |c| == n
    requires forall i :: 0 <= i < |c| ==> c[i] == src.samples[(src.pos + i) % |src.samples|]
    ensures c == Chunk(src, true, n)
  {
  }

  /** The position a looping refill ends at is the one `After` names. */
  lemma LoopingEnd(src: Source, n: nat, at: nat)
    requires Valid(src) && |src.samples| > 0
    requires at % |src.samples| == (src.pos + n) % |src.samples|
    requires n > 0 ==> 1 <= at <= |src.samples|
    requires n == 0 ==> at == src.pos
    ensures src.(pos := at) == After(src, true, n)
  {
    if n > 0 {
      EndOfPeriod(at, src.pos, n, |src.samples|);
    }
  }

  /** The refill loop of `write_samples` for one entry. It writes into the
      scratch buffer from the current offset until the buffer is full; on a
      short write the source is reset, and a looping entry keeps filling from
      the start. A pass right after a reset that writes nothing ends the loop,
      so that a looping source without samples does not spin forever. */
  method Refill(src: Source, looping: bool, n: nat) returns (chunk: seq<I16>, next: Source)
    requires Valid(src)
    ensures Valid(next) && next.samples == src.samples
    ensures chunk == Chunk(src, looping, n)
    ensures next == After(src, looping, n)
  {
    chunk, next := [], src;
    var rewound := false;
    while true
      invariant RefillInv(src, looping, n, chunk, next, rewound)
      decreases 2 * (n - |chunk|) + (if rewound then 0 else 1)
    {
      var w := Fill(next, n - |chunk|);
      ghost var before, source := chunk, next;
      chunk, next := chunk + w.samples, w.source;
      if |chunk| < n {
        next := Reset(next);
        if looping && !(rewound && |w.samples| == 0) {
          RefillContinues(src, looping, n, before, source, rewound);
          rewound := true;
          continue;
        }
      }
      RefillEnds(src, looping, n, before, source, rewound);
      break;
    }
  }

  /** A looping chunk repeats the waveform with period `|s|`: it first plays
      what remains of the source, then restarts from the first sample with no
      gap, and every later sample equals the one a period earlier. */
  lemma LoopingChunkRepeats(src: Source, n: nat)
    requires Valid(src) && |src.samples| > 0
    ensures |Chunk(src, true, n)| == n
    ensures forall i :: 0 <= i < Min(n, |Remaining(src)|) ==> Chunk(src, true, n)[i] == Remaining(src)[i]
    ensures forall i :: |Remaining(src)| <= i < Min(n, |Remaining(src)| + |src.samples|) ==>
              Chunk(src, true, n)[i] == src.samples[i - |Remaining(src)|]
    ensures forall i :: 0 <= i < n - |src.samples| ==> Chunk(src, true, n)[i + |src.samples|] == Chunk(src, true, n)[i]
  {
    LoopingChunkStarts(src, n);
    LoopingChunkRestarts(src, n);
    LoopingChunkPeriodic(src, n);
  }

  lemma LoopingChunkStarts(src: Source, n: nat)
    requires Valid(src) && |src.samples| > 0
    ensures forall i :: 0 <= i < Min(n, |Remaining(src)|) ==> Chunk(src, true, n)[i] == Remaining(src)[i]
  {
    var s, p, c := src.samples, src.pos, Chunk(src, true, n);
    forall i | 0 <= i < Min(n, |Remaining(src)|)
      ensures c[i] == Remaining(src)[i]
    {
      DivModUnique(p + i, 0, p + i, |s|);
    }
  }

  lemma LoopingChunkRestarts(src: Source, n: nat)
    requires Valid(src) && |src.samples| > 0
    ensures forall i :: |Remaining(src)| <= i < Min(n, |Remaining(src)| + |src.samples|) ==>
              Chunk(src, true, n)[i] == src.samples[i - |Remaining(src)|]
  {
    var s, p, c := src.samples, src.pos, Chunk(src, true, n);
    forall i | |Remaining(src)| <= i < Min(n, |Remaining(src)| + |s|)
      ensures c[i] == s[i - |Remaining(src)|]
    {
      DivModUnique(p + i, 1, p + i - |s|, |s|);
    }
  }

  lemma LoopingChunkPeriodic(src: Source, n: nat)
    requires Valid(src) && |src.samples| > 0
    ensures forall i :: 0 <= i < n - |src.samples| ==> Chunk(src, true, n)[i + |src.samples|] == Chunk(src, true, n)[i]
  {
    var s, p, c := src.samples, src.pos, Chunk(src, true, n);
    forall i | 0 <= i < n - |s|
      ensures c[i + |s|] == c[i]
    {
      DivMod(p + i, |s|);
      DivModUnique(p + i + |s|, (p + i) / |s| + 1, (p + i) % |s|, |s|);
    }
  }

  /** One pass of the refill loop as written at mixer.rs lines 385-394: fill
      from the current offset; on a short write reset the source, and go
      round again whenever the entry loops. */
  datatype Pass = Pass(chunk: seq<I16>, source: Source, again: bool)

  function RefillPassAsWritten(src: Source, looping: bool, n: nat, chunk: seq<I16>): (r: Pass)
    requires Valid(src) && |chunk| <= n
    ensures |chunk| <= |r.chunk| <= n && |r.chunk| - |chunk| <= |Remaining(src)|
    ensures r.chunk == chunk + Remaining(src)[..|r.chunk| - |chunk|]
    ensures Valid(r.source) && r.source.samples == src.samples
    ensures |r.chunk| < n ==> r.source == Reset(src)
    ensures r.again <==> looping && |chunk| + |Remaining(src)| < n
  {
    var w := Fill(src, n - |chunk|);
    var c := chunk + w.samples;
    if |c| < n then Pass(c, Reset(w.source), looping) else Pass(c, w.source, false)
  }

  /** As written, a looping entry whose source holds no samples never leaves
      the refill loop: every pass writes nothing, resets the source and asks
      to go round again, and after the first pass the state no longer changes. */
  lemma EmptyLoopingSourceSpins(src: Source, n: nat, chunk: seq<I16>)
    requires Valid(src) && src.samples == [] && |chunk| < n
    ensures RefillPassAsWritten(src, true, n, chunk) == Pass(chunk, Reset(src), true)
    ensures RefillPassAsWritten(Reset(src), true, n, chunk) == Pass(chunk, Reset(src), true)
  {
    assert chunk + [] == chunk;
  }
}

=== FILE: sources.dfy ===
/** The sound-source capability, modelled on values.

    A decoded sound is a track: a finite sequence of interleaved samples, a
    read position and the format it was decoded in. The two format adapters
    that `set_config` wraps around a source are kept as a stack of layers over
    the track; they change only the channel count and sample rate the source
    reports and hand the samples of the track through. */
module Sources {
  import opened Pcm

  /** Rust's `u16` and `u32`. */
  type U16 = x: int | 0 <= x < 0x1_0000
  type U32 = x: int | 0 <= x < 0x1_0000_0000

  function Min(a: int, b: int): int
  {
    if a <= b then a else b
  }

  /** One adapter wrapped around a source: `ChannelConverter` or
      `SampleRateConverter`. */
  datatype Layer = ChannelLayer(channels: U16) | RateLayer(rate: U32)

  /** A track of `samples` read up to `pos`, decoded with `trackChannels`
      channels at `trackRate`, inside the adapters `layers`, innermost first. */
  datatype Source = Source(samples: seq<I16>, pos: nat, trackChannels: U16, trackRate: U32, layers: seq<Layer>)

  /** The channel count reported through `layers`: that of the outermost
      channel adapter, or the track's own when there is none. */
  function ChannelsThrough(base: U16, layers: seq<Layer>): U16
  {
    if layers == [] then base
    else match layers[|layers| - 1]
      case ChannelLayer(c) => c
      case RateLayer(_) => ChannelsThrough(base, layers[..|layers| - 1])
  }

  /** The sample rate reported through `layers`: that of the outermost rate
      adapter, or the track's own when there is none. */
  function RateThrough(base: U32, layers: seq<Layer>): U32
  {
    if layers == [] then base
    else match layers[|layers| - 1]
      case RateLayer(r) => r
      case ChannelLayer(_) => RateThrough(base, layers[..|layers| - 1])
  }

  /** `SoundSource::channels`: the count of the outermost channel adapter,
      or the track's own when it has none. */
  function Channels(s: Source): (r: U16)
    ensures s.layers == [] ==> r == s.trackChannels
    ensures s.layers != [] && s.layers[|s.layers| - 1].ChannelLayer? ==> r == s.layers[|s.layers| - 1].channels
  {
    ChannelsThrough(s.trackChannels, s.layers)
  }

  /** `SoundSource::sample_rate`: the rate of the outermost rate adapter, or
      the track's own when it has none. */
  function SampleRate(s: Source): (r: U32)
    ensures s.layers == [] ==> r == s.trackRate
    ensures s.layers != [] && s.layers[|s.layers| - 1].RateLayer? ==> r == s.layers[|s.layers| - 1].rate
  {
    RateThrough(s.trackRate, s.layers)
  }

  /** `ChannelConverter::new`: reports `channels` and leaves the rate, the
      samples and the position as they were. */
  function ChannelConverter(s: Source, channels: U16): (r: Source)
    ensures Channels(r) == channels && SampleRate(r) == SampleRate(s)
    ensures r.samples == s.samples && r.pos == s.pos
  {
    var r := s.(layers := s.layers + [ChannelLayer(channels)]);
    assert r.layers[..|r.layers| - 1] == s.layers;
    r
  }

  /** `SampleRateConverter::new`: reports `rate` and leaves the channel count,
      the samples and the position as they were. */
  function RateConverter(s: Source, rate: U32): (r: Source)
    ensures SampleRate(r) == rate && Channels(r) == Channels(s)
    ensures r.samples == s.samples && r.pos == s.pos
  {
    var r := s.(layers := s.layers + [RateLayer(rate)]);
    assert r.layers[..|r.layers| - 1] == s.layers;
    r
  }

  /** Whatever the stack of adapters, a source reports the channel count of
      its outermost channel adapter, or the track's own when there is none. */
  lemma {:induction false} OutermostChannels(base: U16, layers: seq<Layer>)
    ensures (forall k :: 0 <= k < |layers| ==> layers[k].RateLayer?) ==> ChannelsThrough(base, layers) == base
    ensures forall k :: 0 <= k < |layers| && layers[k].ChannelLayer? && NoneAbove(layers, k, true) ==>
      ChannelsThrough(base, layers) == layers[k].channels
  {
    if layers != [] {
      var last := |layers| - 1;
      var init := layers[..last];
      OutermostChannels(base, init);
      forall k | 0 <= k < |layers| && layers[k].ChannelLayer? && NoneAbove(layers, k, true)
        ensures ChannelsThrough(base, layers) == layers[k].channels
      {
        if k < last {
          assert init[k] == layers[k];
          assert NoneAbove(init, k, true);
        }
      }
      if forall k :: 0 <= k < |layers| ==> layers[k].RateLayer? {
        assert layers[last].RateLayer?;
        assert forall k :: 0 <= k < |init| ==> init[k] == layers[k];
      }
    }
  }

  /** Whatever the stack of adapters, a source reports the rate of its
      outermost rate adapter, or the track's own when there is none. */
  lemma {:induction false} OutermostRate(rate: U32, layers: seq<Layer>)
    ensures (forall k :: 0 <= k < |layers| ==> layers[k].ChannelLayer?) ==> RateThrough(rate, layers) == rate
    ensures forall k :: 0 <= k < |layers| && layers[k].RateLayer? && NoneAbove(layers, k, false) ==>
      RateThrough(rate, layers) == layers[k].rate
  {
    if layers != [] {
      var last := |layers| - 1;
      var init := layers[..last];
      OutermostRate(rate, init);
      forall k | 0 <= k < |layers| && layers[k].RateLayer? && NoneAbove(layers, k, false)
        ensures RateThrough(rate, layers) == layers[k].rate
      {
        if k < last {
          assert init[k] == layers[k];
          assert NoneAbove(init, k, false);
        }
      }
      if forall k :: 0 <= k < |layers| ==> layers[k].ChannelLayer? {
        assert layers[last].ChannelLayer?;
        assert forall k :: 0 <= k < |init| ==> init[k] == layers[k];
      }
    }
  }

  /** No adapter of the kind (`channel` or rate) sits above index `k`. */
  ghost predicate NoneAbove(layers: seq<Layer>, k: nat, channel: bool)
  {
    forall m :: k < m < |layers| ==> layers[m].ChannelLayer? != channel
  }

  ghost predicate Valid(s: Source)
  {
    s.pos <= |s.samples|
  }

  function Remaining(s: Source): seq<I16>
    requires Valid(s)
  {
    s.samples[s.pos..]
  }

  /** `SoundSource::reset`: rewinds to the start and keeps everything else. */
  function Reset(s: Source): (r: Source)
    ensures Valid(r) && r.pos == 0 && Remaining(r) == s.samples
    ensures r.samples == s.samples && r.layers == s.layers
    ensures Channels(r) == Channels(s) && SampleRate(r) == SampleRate(s)
  {
    s.(pos := 0)
  }

  /** What one `write_samples` call into a buffer hands back: the samples it
      wrote and the source after the call. */
  datatype Written = Written(samples: seq<I16>, source: Source)

  /** `SoundSource::write_samples` into a buffer with room for `room` samples:
      writes as many of the remaining samples as fit and advances the position
      past them. A write shorter than the buffer happens exactly when the
      source has reached its end. */
  function Fill(s: Source, room: nat): (w: Written)
    requires Valid(s)
    ensures |w.samples| == Min(room, |Remaining(s)|)
    ensures w.samples == Remaining(s)[..|w.samples|]
    ensures w.source == s.(pos := s.pos + |w.samples|)
    ensures Valid(w.source)
    ensures |w.samples| < room <==> |Remaining(s)| < room
    ensures |w.samples| < room ==> Remaining(w.source) == []
  {
    var n := Min(room, |s.samples| - s.pos);
    Written(s.samples[s.pos..s.pos + n], s.(pos := s.pos + n))
  }

  /** After a reset the source plays its samples from the start again, exactly
      as a fresh track holding the same samples would. */
  lemma ResetReplays(s: Source, room: nat)
    requires Valid(s)
    ensures Fill(Reset(s), room).samples == Fill(Source(s.samples, 0, Channels(s), SampleRate(s), []), room).samples
    ensures Fill(Reset(s), room).samples == s.samples[..Min(room, |s.samples|)]
  {
  }

  /** The source as `set_config` leaves it for a mixer configured with
      `channels` and `rate`: a channel adapter is wrapped around it only if its
      channel count differs, then a rate adapter only if its sample rate still
      differs. */
  function Convert(s: Source, channels: U16, rate: U32): (r: Source)
    ensures Channels(r) == channels && SampleRate(r) == rate
    ensures r.samples == s.samples && r.pos == s.pos
  {
    var c := if Channels(s) != channels then ChannelConverter(s, channels) else s;
    if SampleRate(c) != rate then RateConverter(c, rate) else c
  }

  /** Converting makes the source report the mixer's format, wraps only the
      dimensions that differ (channels innermost, then rate), and keeps the
      samples and the read position of the wrapped source. */
  lemma ConvertMatchesFormat(s: Source, channels: U16, rate: U32)
    ensures Channels(Convert(s, channels, rate)) == channels
    ensures SampleRate(Convert(s, channels, rate)) == rate
    ensures Convert(s, channels, rate).layers
         == s.layers
          + (if Channels(s) != channels then [ChannelLayer(channels)] else [])
          + (if SampleRate(s) != rate then [RateLayer(rate)] else [])
    ensures Convert(s, channels, rate).samples == s.samples
    ensures Convert(s, channels, rate).pos == s.pos
    ensures Channels(s) == channels && SampleRate(s) == rate ==> Convert(s, channels, rate) == s
  {
  }
}

=== FILE: wrappers.dfy ===
module Wrappers {
  datatype Option<T> = None | Some(value: T)
}
